=== FILE: README.md ===
# eth-indexer core, modelled in Dafny

The indexer follows an Ethereum chain and keeps the node-operator signing
keys of a registry contract in step with it. It has four parts, and each is
a Dafny module here:

- **Block window** (`BlockWatcher`, from `src/blockWatcher.ts`). This is the
  stack of recent blocks. It covers the cold start that backfills from the
  `finalized` tag up to the `latest` tag, the acceptance guard for new heads,
  the parent-hash fork check, and the backward repair walk. It also covers
  the finalized-window pruning and the split of the stack into latest and
  finalized blocks.
- **Keys manager** (`KeysManager`, from `src/keysManager.ts`). Block changes
  are grouped by the registry nonce resolved for each block. The resolver is
  a parameter; the program's own resolver returns the registry's current
  nonce for every block (`CurrentNonceReorg`, `CurrentNonceOneJob`). There is one
  key-loading job per nonce not yet seen, and each job carries a freshly
  minted job id. A job may mark its nonce loaded, and a block save may go
  ahead, only while the nonce still holds that id. A reorg drops the nonces
  that the reorged blocks resolve to and that lie above the last one known
  to be good; other held nonces stay.
- **Signing-key pagination** (`SigningKeys`, from `src/utils/getSigningKeys.ts`).
  This is the page plan of one operator's keys, the bounded retry loop, and
  the enumeration over operators.
- **Batch-size discovery** (`RpcHelper`, from `src/helpers/RPCHelper.ts`).
  This is a binary search per operator for the largest page the node
  answers. The operators are scanned in order while a running maximum is
  kept, and a cache sits in front of the search.

How the model is built:

- **State changes are pure functions over immutable datatypes.** Each
  locked section or callback of the source is one transition.
- **Every call into the node is a function-typed parameter.** These are
  `getBlock` by number, nonce resolution, a page read and a probe request.
  The predicate `Chain.ByNumber(fetch)` says that the node answers each
  request with the block of that number.
- **Block numbers are `nat`.** The source's truthiness tests
  (`!block.number`, `!this.lastFinalizedBlockNumber`) treat a missing
  (`null`) number and block 0 alike, so both are 0 here. The pruning
  arithmetic is the one place where they differ: `0n - keep` is a number,
  `null - keep` throws. The model follows the `0n` reading (see Left out).
- **Job ids (`nanoid()`) come from a counter, `nextToken`.** The invariant
  `TokensFresh` says that every id held was minted before the counter.

Shared pieces:

- `Wrappers` holds `Option` and `Result`.
- `Seqs` holds the sequence helpers: `Filter`, `Dedup` (keeps the first
  occurrence, like `[...new Set(xs)]`), `Min`, `Lesser`, `Greater` and
  `Iota`.
- `Chain` holds the block type, `FindIndex` and `Numbers`.

Where the code departs from its own comments and TODOs, the model follows
the code:

- **Pruning is never called.** `handleNewBlock` does not call
  `sliceFinalizedBlocks`, because the call is commented out at
  `src/blockWatcher.ts:101`. `SliceFinalizedBlocks` is modelled on its own.
- **Pruning goes ahead on any change of the finalized number.** It also goes
  ahead when the number moves backwards, not only when it advances.
- **Rejected heads are still announced.** The head handler forwards
  `[block]` to `onChange` with no reorg flag, even when `handleNewBlock`
  rejected the block.
- **A repair sends no notification.** It emits nothing, so `onChange` is
  never called with `isReorg` set.
- **A repair that finds no common ancestor is not reported.** It rewrites
  every numbered block below the tip and says nothing about it
  (`RepairExhaustedIsSilent`).
- **A save whose job id has been superseded polls forever.** The source's
  wait loop has no exit on an id mismatch (`SupersededSaveWaits`).
- **A job whose page reads ran out of retries is still marked loaded.**
  The retry loop returns normally after its last failed attempt, so
  `getSigningKeys` resolves and the job marks its nonce loaded. The keys of
  failed attempts stay in the operator's result (`RetryKeepsFailedPages`).
  The nonce entry itself holds no keys: the job only logs how many it got.
- **A failed count read stalls the nonce.** The reads of an operator's key
  total and of the operator count are outside the retry loop. When one
  throws, `getSigningKeys` rejects, the job stops at its `await`, the nonce
  is never marked loaded, and every save waiting on it polls forever
  (`GetSigningKeys`, `AddKeysForNonce`, `FailedFetchStallsSaves`).

## Model

| member | source | states |
|---|---|---|
| Chain.FindIndex | src/blockWatcher.ts:166-168 | the result is the first index holding the number, or -1 exactly when no block has it |
| BlockWatcher.FindIndexAscending | src/blockWatcher.ts:166-169 | on a strictly ascending stack, looking up a held block's number finds that block's own index |
| BlockWatcher.RepairWalk | src/blockWatcher.ts:159-173 | the walk writes entries in place and never changes the stack's length |
| BlockWatcher.RepairWalkWrites | src/blockWatcher.ts:159-173 | every entry the walk changes becomes the node's copy of a numbered entry it visited; nothing else is written |
| BlockWatcher.AncestorAt | src/blockWatcher.ts:159-172 | the walk stops at the highest numbered entry whose hash the node confirms; every numbered entry above it, up to the start, mismatches |
| BlockWatcher.RepairWalkSpec | src/blockWatcher.ts:155-173 | on an ascending snapshot, entries up to and including the ancestor are kept, and every numbered entry above it is replaced by the node's block of that number |
| BlockWatcher.MakeBlocksReorg | src/blockWatcher.ts:150-175 | repair keeps the stack length and the finalized boundary, and ends with the reorg flag cleared |
| BlockWatcher.RepairSpec | src/blockWatcher.ts:150-175 | repair keeps the tip and everything up to the common ancestor, replaces the numbered blocks between them with the node's blocks, and keeps the stack strictly ascending |
| BlockWatcher.RepairExhaustedIsSilent | src/blockWatcher.ts:159-175 | when no entry below the tip matches the node, every numbered entry below the tip is replaced by the node's block, the length is kept and the flag cleared, and nothing in the result reports the exhausted walk |
| BlockWatcher.CheckReorg | src/blockWatcher.ts:137-148 | without a parent-hash break at the tip the watcher is unchanged; with one, repair runs and clears the flag |
| BlockWatcher.CheckReorgRepairs | src/blockWatcher.ts:137-175 | on an ascending stack and a node that answers by number, a broken parent link at the tip keeps the length, the tip and every entry up to the common ancestor, and replaces each numbered entry between them with the node's block of that number |
| BlockWatcher.HandleNewBlock | src/blockWatcher.ts:93-104 | a rejected head changes nothing; an accepted one grows the stack by one, and is appended as is when the parent link holds |
| BlockWatcher.HandleNewBlockKeepsAscending | src/blockWatcher.ts:95-103 | accepting heads keeps the stack strictly ascending, with the new head on top |
| BlockWatcher.OnBlock | src/blockWatcher.ts:38-41 | the head handler forwards exactly `[block]`, whether or not the block was accepted |
| BlockWatcher.Backfill | src/blockWatcher.ts:80-86 | the backfill is `count` blocks fetched in turn, one per consecutive number |
| BlockWatcher.BackfillCount | src/blockWatcher.ts:71-78 | the range length is zero exactly when `latest + keep <= finalized`, and otherwise ends at `latest - 1` |
| BlockWatcher.ColdStart | src/blockWatcher.ts:60-91 | a missing tag number aborts with nothing changed; otherwise the boundary is set, and when the range start is not negative the backfill is announced and prepended |
| BlockWatcher.StartWatching | src/blockWatcher.ts:31-35 | an empty stack always runs the cold start, and then the stack becomes exactly the announced backfill; a non-empty stack is left alone |
| BlockWatcher.ColdStartRange | src/blockWatcher.ts:70-90 | on a node that answers by number, the backfilled numbers are exactly `finalized - keep .. latest - 1`, and the stack stays ascending |
| BlockWatcher.ColdStartExample | src/blockWatcher.ts:70-78 | finalized 100, latest 105 and depth 11 backfill the 16 blocks 89 to 104 |
| BlockWatcher.SliceFinalizedBlocks | src/blockWatcher.ts:106-135 | pruning is a no-op when the boundary is unset or unchanged; otherwise the new boundary is stored, the numbered blocks at or above `finalized - keep` are kept, the numbers of those below are reported, and the reorg flag is untouched |
| BlockWatcher.PruneAtGenesis | src/blockWatcher.ts:110-134 | a finalized tag at block 0 stores boundary 0, keeps every numbered block, drops the unnumbered ones and reports an empty list |
| BlockWatcher.PruneSizes | src/blockWatcher.ts:117-131 | kept and removed blocks together never exceed the stack |
| BlockWatcher.PruneSplitsAtCutoff | src/blockWatcher.ts:117-131 | on an ascending stack, the removed numbers followed by the kept numbers are exactly the numbered blocks, in order |
| BlockWatcher.AscendingFilter | src/blockWatcher.ts:126-131 | pruning keeps the stack strictly ascending |
| BlockWatcher.GetCurrentState | src/blockWatcher.ts:45-57 | latest blocks are the numbered ones above the boundary, finalized blocks the numbered ones at or below it, and no block is in both |
| BlockWatcher.CurrentStatePartitions | src/blockWatcher.ts:45-57 | on an ascending stack, the finalized blocks followed by the latest blocks are exactly the numbered blocks |
| Seqs.Dedup | src/keysManager.ts:102 | deduplication keeps each value once, and keeps exactly the values of the input |
| Seqs.Min | src/keysManager.ts:56-58 | the reduction returns a member of the list that is at most every member |
| Chain.Numbers | src/keysManager.ts:55 | the ids are the block numbers, in order and one per block |
| KeysManager.LastGoodNonce | src/keysManager.ts:56-64 | a nonce is found exactly when the number below the lowest reorged block is stored, and it is that entry's nonce |
| KeysManager.StaleNonces | src/keysManager.ts:55-68 | an empty block list throws; otherwise the stale nonces are distinct, and are exactly the resolved nonces above an existing last good nonce |
| KeysManager.CurrentNonceReorg | src/keysManager.ts:55-68 | when every block resolves to the registry's current nonce, as `src/utils/getNonce.ts` does, the reorg drops at most that one nonce, and drops it exactly when it lies above the last good nonce |
| KeysManager.DropNonces | src/keysManager.ts:71-73 | exactly the stale nonces leave the nonce map; every other entry and the blocks map are untouched |
| KeysManager.ReorgPass | src/keysManager.ts:51-78 | the pass throws exactly on an empty list; otherwise a nonce stays exactly when it was held and is not a resolved nonce above the last good one; blocks and kept entries are untouched, and nothing changes when there is no last good nonce |
| KeysManager.DedupTwice | src/keysManager.ts:67 | a nonce resolved twice is kept once |
| KeysManager.StaleNoncesExample | src/keysManager.ts:55-68 | blocks 101 and 102 resolved to nonce 6, over block 100 stored with nonce 5, make 6 stale |
| KeysManager.ReorgExample | src/keysManager.ts:51-78 | that reorg removes nonce 6 from the map and keeps nonce 5 |
| KeysManager.FilterChanged | src/keysManager.ts:80-87 | a block survives exactly when it is numbered and is either untracked or tracked under another hash |
| KeysManager.WithNonces | src/keysManager.ts:89-100 | every block number is paired with its resolved nonce and with the first block of that number |
| KeysManager.WithNoncesConsistent | src/keysManager.ts:93-99 | two pairs with the same number carry the same block and nonce |
| KeysManager.FetchHeight | src/keysManager.ts:110-119 | a nonce that no item carries gets height 0 (the source only asks for nonces taken from the items) |
| KeysManager.FetchHeightIsLowest | src/keysManager.ts:110-119 | for a nonce among the items, the fetch height is the number of one of its items and no item of that nonce is numbered lower |
| KeysManager.FetchHeightExample | src/keysManager.ts:110-119 | nonce 7 on blocks 50 and 51 is fetched at height 50 |
| KeysManager.NoncesToLoad | src/keysManager.ts:102-106 | the nonces to load are distinct and are exactly the item nonces not yet in the map |
| KeysManager.NoncesToLoadExample | src/keysManager.ts:102-106 | nonce 7 on two blocks over an empty map is loaded once |
| KeysManager.CreateJobs | src/keysManager.ts:106-121 | each nonce to load gets one job with a new id, in order, and is entered unloaded under that id; every other entry is untouched |
| KeysManager.RecordAll | src/keysManager.ts:123-130 | every item's number maps to its hash and nonce; every other entry is untouched |
| KeysManager.SaveTasks | src/keysManager.ts:123-132 | one save is launched per item, under the job id its nonce holds |
| KeysManager.Pairs | src/keysManager.ts:80-100 | the pairs are consistent, and each carries its own block's number |
| KeysManager.Commit | src/keysManager.ts:104-135 | the locked section creates one job per nonce to load, in order, advances the counter by one per job, and the nonce map gains exactly the job nonces |
| KeysManager.ProcessChanges | src/keysManager.ts:80-135 | the counter advances by one per job, and the nonce map gains exactly the job nonces |
| KeysManager.CurrentNonceOneJob | src/keysManager.ts:89-121 | when every block resolves to the registry's current nonce, one change launches at most one load job, for that nonce |
| KeysManager.CommitKeepsHeldNonces | src/keysManager.ts:106-109 | the entry of a nonce already held is never overwritten |
| KeysManager.CommitJobs | src/keysManager.ts:106-121 | job nonces are distinct, job ids are consecutive new ids, and each nonce is entered unloaded under its job's id |
| KeysManager.CommitSaves | src/keysManager.ts:123-132 | every save carries the id its nonce holds, and its block is recorded under that nonce |
| KeysManager.CommitKeepsFresh | src/keysManager.ts:106-121 | every job id held stays below the counter |
| KeysManager.OnChange | src/keysManager.ts:47-136 | a reorg with no numbered block throws; without a reorg the change is processed over the numbered blocks; ids stay fresh and one id is minted per job |
| KeysManager.NoNumberedBlocks | src/keysManager.ts:48-58 | the numbered filter is empty exactly when no block is numbered |
| KeysManager.CompleteJob | src/keysManager.ts:151-158 | the nonce is marked loaded only while it holds the job's id; otherwise nothing changes, and other nonces never change |
| KeysManager.AddKeysForNonce | src/keysManager.ts:138-165 | a rejected key fetch leaves the state as it was; a resolved one marks the nonce loaded only while it holds the job's id, and no other entry changes |
| KeysManager.FailedFetchStallsSaves | src/keysManager.ts:143-177 | when the key fetch of an unloaded nonce rejects, no observed state is ever ready, so every save waiting on that nonce keeps polling |
| KeysManager.CompleteJobKeepsFresh | src/keysManager.ts:151-158 | completion keeps every held id below the counter |
| KeysManager.SupersededCompletionIgnored | src/keysManager.ts:138-165 | a job whose id predates an onChange cannot mark any nonce that onChange loads |
| KeysManager.SaveBlock | src/keysManager.ts:166-199 | the save waits exactly while no observed state is ready under its id, and is saved exactly when one is and the re-check still holds the id |
| KeysManager.RecheckAtReadyPollSaves | src/keysManager.ts:170-186 | when the re-check sees the state of the first ready poll, as it does in the program, the save always goes ahead |
| KeysManager.SupersededSaveWaits | src/keysManager.ts:170-177 | a save whose id is gone in every observed state never leaves its wait loop |
| KeysManager.CutOffFinalizedBlocks | src/keysManager.ts:201-206 | the cut-off handler leaves the state as it is |
| KeysManager.PairsExample | src/keysManager.ts:89-100 | blocks 50 and 51 resolved to nonce 7 pair up in order |
| KeysManager.JobsExample | src/keysManager.ts:102-121 | nonce 7 on blocks 50 and 51 gives one job, fetched at height 50 |
| KeysManager.OneJobPerNonceExample | src/keysManager.ts:102-132 | the same change creates one job and records both blocks under nonce 7 |
| SigningKeys.CeilDiv | src/utils/getSigningKeys.ts:15 | the batch count is the fewest batches that hold every key |
| SigningKeys.PageAsWritten | src/utils/getSigningKeys.ts:22-28 | each page asks for at most one batch and at most the total, at an offset that is its index times its own length rather than times the batch size |
| SigningKeys.PagePlan | src/utils/getSigningKeys.ts:15-28 | the plan has one page per batch, and with a zero batch size and keys to fetch it never ends |
| SigningKeys.PagePlanCoversIff | src/utils/getSigningKeys.ts:15-28 | the plan as written requests every key exactly once, in order, if and only if there are fewer keys than one batch |
| SigningKeys.PagePlanSkipsLastBatch | src/utils/getSigningKeys.ts:22-28 | with 10 keys in batches of 5 the second page is empty, and keys 5 to 9 are never requested |
| SigningKeys.PagePlanExactBatchReadsNothing | src/utils/getSigningKeys.ts:15-28 | with exactly 5 keys in batches of 5 the only page asks for 0 keys, so no key is requested |
| SigningKeys.PagePlanRereadsKeys | src/utils/getSigningKeys.ts:22-28 | with 7 keys in batches of 5 the second page re-reads keys 2 and 3 |
| SigningKeys.FixedPlan | src/utils/getSigningKeys.ts:15-28 | the corrected plan has the same number of pages |
| SigningKeys.FixedPlanCovers | src/utils/getSigningKeys.ts:15-28 | the corrected plan requests every key exactly once, in ascending order |
| SigningKeys.PlansAgreeBelowOneBatch | src/utils/getSigningKeys.ts:15-28 | when there are fewer keys than one batch, the plan as written is the corrected plan |
| SigningKeys.Attempt | src/utils/getSigningKeys.ts:21-31 | an attempt fails only when one of its page reads throws |
| SigningKeys.RunAttempt | src/utils/getSigningKeys.ts:20-32 | one pass of the page loop reports success exactly when the attempt completes, and appends exactly that attempt's keys to the accumulator |
| SigningKeys.AttemptSucceedsIff | src/utils/getSigningKeys.ts:21-31 | an attempt succeeds exactly when no page read throws, and then returns the pages' keys in request order |
| SigningKeys.AttemptStopsAtFailure | src/utils/getSigningKeys.ts:21-32 | the first page read that throws ends the attempt, keeping the keys pushed before it |
| SigningKeys.GetOperatorKeys | src/utils/getSigningKeys.ts:3-43 | at most `maxRetryCount` attempts are made, they stop after the first success, every earlier attempt failed, and the keys of every attempt made are accumulated without reset |
| SigningKeys.RetryKeepsFailedPages | src/utils/getSigningKeys.ts:17-40 | a key read by a failed attempt appears again when the retry reads it |
| SigningKeys.FetchAll | src/utils/getSigningKeys.ts:52-66 | the enumeration rejects exactly when some operator's plan is missing; otherwise it holds one entry per operator id, in order, each with what its retry loop accumulated under the loop's stopping rule (every attempt before the last failed, and the last succeeded or was the third), and exactly the first attempt's keys when that attempt succeeds |
| SigningKeys.GetSigningKeys | src/utils/getSigningKeys.ts:3-66 | with the plan as written, the call rejects exactly when the operator count or some operator's key total cannot be read; otherwise each operator's entry is what its retry loop accumulated over that plan, retrying each failed attempt until one succeeds or three were made |
| SigningKeys.GetSigningKeysFixed | src/utils/getSigningKeys.ts:3-66 | with the corrected plan, the same rejection cases and the same retry rule, and each operator's plan requests every one of its keys exactly once |
| RpcHelper.SearchOperator | src/helpers/RPCHelper.ts:55-70 | the search settles on a point whose successor was rejected and which was itself accepted, unless it is a bound; `low` ends one past it |
| RpcHelper.SettledAtThreshold | src/helpers/RPCHelper.ts:61-70 | against a node that accepts exactly the limits up to a threshold, the search finds the threshold, clamped to the searched range |
| RpcHelper.RunningMax | src/helpers/RPCHelper.ts:52-71 | the result is never negative, and it is at least the latest operator's settled point |
| RpcHelper.FindMaxBatchSize | src/helpers/RPCHelper.ts:38-78 | each operator's search starts where the previous one ended; the result is the running maximum and lies between 0 and the upper bound; the scan goes on while the result covers each operator's key count, and stops at the first operator it does not cover; a start above the upper bound skips every search and settles at the bound |
| RpcHelper.SettledHighsAscend | src/helpers/RPCHelper.ts:54-71 | because `low` is never reset, the settled points never decrease, and the result is the last of them |
| RpcHelper.SettledHighsAtThresholds | src/helpers/RPCHelper.ts:61-71 | against threshold nodes, each settled point is the previous one raised to the operator's threshold, capped at the upper bound |
| RpcHelper.GetMaxBatchSize | src/helpers/RPCHelper.ts:15-24 | a non-zero cached size is returned as is; a zero cache triggers a search over `[1, 1500]`, so a zero result is searched again on the next call |

## Findings

| source | as written | input that shows it | evidently intended | confidence | as-written member | corrected member |
|---|---|---|---|---|---|---|
| src/utils/getSigningKeys.ts:22-28 | page `i` requests `actualLimit` keys at offset `i * actualLimit`, and on the last page `actualLimit` is `total % maxBatchSize` | 10 keys in batches of 5 request pages (0, 5) and (0, 0), so keys 5 to 9 are never read; 7 keys in batches of 5 request (0, 5) and (2, 2), so keys 2 and 3 are read twice and 5 and 6 never; exactly 5 keys in batches of 5 request the single page (0, 0), so an operator with exactly `maxBatchSize` keys gets none | page `i` starts at `i * maxBatchSize` and the last page takes whatever remains, which covers every key exactly once | high, not executed | SigningKeys.PagePlanCoversIff | SigningKeys.FixedPlanCovers |

## Left out

- Every I/O path is a parameter: RPC calls, contract reads, the block subscription, logging, the one-second delay and `nanoid`. Outside `SigningKeys`, the reads are taken to succeed; the lines below say what a failing read would change.
- BlockWatcher.MakeBlocksReorg: assumes every `getBlock` of the walk returns. In the source a rejected fetch mid-walk leaves `reorgInProgress` set and keeps the entries above the failing one already replaced; the model always ends the walk with the flag cleared.
- BlockWatcher.ColdStart: assumes every backfill fetch returns. In the source a rejected fetch leaves the new boundary stored and the stack as it was, and announces nothing; the model covers only the negative-start rejection.
- RpcHelper.FindMaxBatchSize: takes the operator count and each operator's key total as reads that succeed. In the source either read can reject, and then `getMaxBatchSize` rejects with the cache left at 0, so the next call searches again.
- Concurrency is left out. That covers the async lock (each locked section is one transition), interleavings between awaits, and the fact that `onChange` and the locks are not awaited in places.
- The one-page probe request is left out. The search sees only its boolean outcome.
- Conversions between `number` and `bigint` are left out, as is `Number()` on large totals.
- The environment override of `FINALIZED_BLOCKS_TO_KEEP` is left out. The depth is a parameter, and `DefaultKeep` is its default.
- `src/index.ts`, `setup-db.ts` and the contract and client set-up are outside the core and are not part of this model.
- The nonce resolver of `src/utils/getNonce.ts` is a parameter, `nonceAt`, that may give each block number its own nonce. That is more general than the program: `getNonce` ignores its block number and reads the registry's current nonce, so every block of a change resolves to the same nonce. `KeysManager.CurrentNonceReorg` and `KeysManager.CurrentNonceOneJob` state what follows for that resolver.
- The `seed` argument of the keys manager constructor is left out: the source ignores it.
- The fetch height of a nonce that no item carries is 0 in `KeysManager.FetchHeight`. The source would read `undefined` there, but it only asks for nonces taken from the items.
- SigningKeys.GetSigningKeys: requires a positive batch size. With a batch size of 0 the source's page loop does not end for an operator with keys while its page reads succeed. `PagePlan` models that case as `None`.
- BlockWatcher.SliceFinalizedBlocks: does not tell a `null` finalized tag from block 0. With a `null` tag and a numbered block on the stack, the source stores `null` and then throws on `null - keep`, leaving the stack as it was and calling no callback. The model reads the tag as block 0 instead, so it keeps every numbered block, drops the unnumbered ones and reports `[]`. With no numbered block on the stack the two agree.
- RpcHelper.GetMaxBatchSize: states the bounds of a searched size, not its value. The value is the result of `FindMaxBatchSize`, whose contract states it.
- KeysManager.OnChange: for a reorg, the result is stated through `ReorgPass` and the `Commit` lemmas rather than in its own contract.
- KeysManager.OnChange: takes the nonce resolver as a read that succeeds. In the source `getNonces` can reject at either call. A rejection in the reorg pass leaves the nonce map untouched and skips the rest. A rejection at the pairing step makes `onChange` reject with no block recorded and no job or save launched, so that change is lost; after a reorg, the stale nonces are already deleted by then.

=== FILE: block_watcher.dfy ===
/** The block window of `src/blockWatcher.ts`: an ordered stack of recent
    blocks, cold-start backfill, head acceptance, fork detection and repair,
    finalized pruning and the latest/finalized split. Every step is a pure
    transition over a `Watcher` value; the node's `getBlock` by number is the
    oracle `fetch`, and the `"latest"` / `"finalized"` tags arrive as blocks. */
module BlockWatcher {
  import opened Wrappers
  import opened Chain
  import Seqs

  /** FINALIZED_BLOCKS_TO_KEEP when the environment leaves it unset. */
  const DefaultKeep: nat := 11

  datatype Watcher = Watcher(stack: seq<Block>, lastFinalized: nat, reorgInProgress: bool)

  /** A freshly constructed watcher. */
  const Initial := Watcher([], 0, false)

  /** Strictly ascending by number, hence no number occurs twice. */
  ghost predicate Ascending(s: seq<Block>) {
    forall i, j :: 0 <= i < j < |s| ==> s[i].number < s[j].number
  }

  // ---------------------------------------------------------------------
  // Head acceptance and fork detection
  // ---------------------------------------------------------------------

  /** The guard of handleNewBlock: the stack is empty or the block is numbered
      above the tip (an absent number on either side counts as 0). */
  predicate Accepts(s: seq<Block>, b: Block) {
    |s| == 0 || b.number > s[|s| - 1].number
  }

  /** The trigger of checkReorg: the tip does not name its predecessor as parent. */
  predicate ForkAtTip(s: seq<Block>) {
    |s| >= 2 && s[|s| - 1].parentHash != s[|s| - 2].hash
  }

  /** In an ascending stack a number is found exactly where it is held. */
  lemma FindIndexAscending(s: seq<Block>, i: nat)
    requires Ascending(s) && i < |s|
    ensures FindIndex(s, s[i].number) == i
  {
  }

  // ---------------------------------------------------------------------
  // Reorg repair
  // ---------------------------------------------------------------------

  /** The walk of makeBlocksReorg. `orig` is the snapshot taken before the
      walk, visited at indices `i, i - 1, ..., 0`; `cur` is the live stack
      being rewritten. An unnumbered entry is skipped; an entry whose on-chain
      copy has the same hash ends the walk; otherwise the on-chain copy is
      written at the first live index holding that number (an index of -1
      writes nothing to the array's elements). */
  function RepairWalk(orig: seq<Block>, cur: seq<Block>, i: int, fetch: nat -> Block): (r: seq<Block>)
    requires i < |orig|
    ensures |r| == |cur|
    decreases i + 1
  {
    if i < 0 then cur
    else if orig[i].number == 0 then RepairWalk(orig, cur, i - 1, fetch)
    else
      var onChain := fetch(orig[i].number);
      if onChain.hash == orig[i].hash then cur
      else
        var j := FindIndex(cur, orig[i].number);
        RepairWalk(orig, if j == -1 then cur else cur[j := onChain], i - 1, fetch)
  }

  /** The node's copies of the numbered entries at indices `i, i - 1, ..., 0`:
      the only blocks the walk from `i` can write. */
  function OnChainCopies(orig: seq<Block>, i: int, fetch: nat -> Block): seq<Block>
    requires i < |orig|
    decreases i + 1
  {
    if i < 0 then []
    else (if orig[i].number != 0 then [fetch(orig[i].number)] else []) + OnChainCopies(orig, i - 1, fetch)
  }

  /** The walk keeps the live stack's length, and every entry it changes
      becomes the node's copy of a numbered entry it visited: nothing else
      is ever written. */
  lemma {:induction false} RepairWalkWrites(orig: seq<Block>, cur: seq<Block>, i: int, fetch: nat -> Block)
    requires i < |orig|
    ensures var r := RepairWalk(orig, cur, i, fetch);
      && |r| == |cur|
      && forall k :: 0 <= k < |cur| ==> r[k] == cur[k] || r[k] in OnChainCopies(orig, i, fetch)
    decreases i + 1
  {
    if i >= 0 {
      RepairWalkWrites(orig, cur, i - 1, fetch);
      if orig[i].number != 0 && fetch(orig[i].number).hash != orig[i].hash {
        var j := FindIndex(cur, orig[i].number);
        var next := if j == -1 then cur else cur[j := fetch(orig[i].number)];
        RepairWalkWrites(orig, next, i - 1, fetch);
      }
    }
  }

  /** The common ancestor the walk from `i` stops at: the highest numbered
      index at or below `i` whose on-chain hash matches the stored one, or -1 when
      the walk exhausts the stack. */
  function AncestorAt(s: seq<Block>, i: int, fetch: nat -> Block): (k: int)
    requires i < |s|
    ensures k == -1 || 0 <= k <= i
    ensures k >= 0 ==> s[k].number != 0 && fetch(s[k].number).hash == s[k].hash
    ensures forall m :: k < m <= i && s[m].number != 0 ==> fetch(s[m].number).hash != s[m].hash
    decreases i + 1
  {
    if i < 0 then -1
    else if s[i].number != 0 && fetch(s[i].number).hash == s[i].hash then i
    else AncestorAt(s, i - 1, fetch)
  }

  /** On an ascending snapshot and a node that answers by number, the walk
      from `i` replaces exactly the numbered entries above the ancestor and at
      or below `i`, each by its on-chain copy, and leaves everything else. */
  lemma {:induction false} RepairWalkSpec(orig: seq<Block>, cur: seq<Block>, i: int, fetch: nat -> Block)
    requires Ascending(orig) && ByNumber(fetch)
    requires -1 <= i < |orig| && |cur| == |orig|
    requires forall k :: 0 <= k < |cur| ==> cur[k].number == orig[k].number
    requires forall k :: 0 <= k <= i ==> cur[k] == orig[k]
    ensures forall k :: 0 <= k < |cur| ==>
      RepairWalk(orig, cur, i, fetch)[k] ==
        (if AncestorAt(orig, i, fetch) < k <= i && orig[k].number != 0 then fetch(orig[k].number) else cur[k])
    decreases i + 1
  {
    if i < 0 {
      assert RepairWalk(orig, cur, i, fetch) == cur;
    } else if orig[i].number == 0 {
      assert RepairWalk(orig, cur, i, fetch) == RepairWalk(orig, cur, i - 1, fetch);
      RepairWalkSpec(orig, cur, i - 1, fetch);
      SkipStepSpec(orig, cur, i, fetch);
    } else if fetch(orig[i].number).hash == orig[i].hash {
      MatchStepSpec(orig, cur, i, fetch);
    } else {
      var onChain := fetch(orig[i].number);
      FindIndexRenumbered(orig, cur, i);
      var next := cur[i := onChain];
      assert RepairWalk(orig, cur, i, fetch) == RepairWalk(orig, next, i - 1, fetch);
      RepairWalkSpec(orig, next, i - 1, fetch);
      RepairStepSpec(orig, cur, next, i, fetch);
    }
  }

  /** A numbered entry the node confirms ends the walk there, with nothing
      written. */
  lemma MatchStepSpec(orig: seq<Block>, cur: seq<Block>, i: nat, fetch: nat -> Block)
    requires i < |orig| && |cur| == |orig| && orig[i].number != 0
    requires fetch(orig[i].number).hash == orig[i].hash
    ensures RepairWalk(orig, cur, i, fetch) == cur && AncestorAt(orig, i, fetch) == i
  {
  }

  /** An unnumbered entry is passed over: the walk from `i - 1` already
      keeps what the walk from `i` promises. */
  lemma SkipStepSpec(orig: seq<Block>, cur: seq<Block>, i: nat, fetch: nat -> Block)
    requires i < |orig| && |cur| == |orig| && orig[i].number == 0
    requires forall k :: 0 <= k < |cur| ==>
      RepairWalk(orig, cur, i - 1, fetch)[k] ==
        (if AncestorAt(orig, i - 1, fetch) < k <= i - 1 && orig[k].number != 0 then fetch(orig[k].number) else cur[k])
    ensures forall k :: 0 <= k < |cur| ==>
      RepairWalk(orig, cur, i - 1, fetch)[k] ==
        (if AncestorAt(orig, i, fetch) < k <= i && orig[k].number != 0 then fetch(orig[k].number) else cur[k])
  {
    assert AncestorAt(orig, i, fetch) == AncestorAt(orig, i - 1, fetch);
  }

  /** A stack numbered like an ascending one finds each number at the same
      index. */
  lemma FindIndexRenumbered(orig: seq<Block>, cur: seq<Block>, i: nat)
    requires Ascending(orig) && i < |orig| && |cur| == |orig|
    requires forall k :: 0 <= k < |cur| ==> cur[k].number == orig[k].number
    ensures FindIndex(cur, orig[i].number) == i
  {
    assert Ascending(cur);
    FindIndexAscending(cur, i);
  }

  /** One rewriting step of the walk: what the rest of the walk from `i - 1`
      leaves on the stack with index `i` rewritten is what the walk from `i`
      promises. */
  lemma RepairStepSpec(orig: seq<Block>, cur: seq<Block>, next: seq<Block>, i: nat, fetch: nat -> Block)
    requires i < |orig| && |cur| == |orig|
    requires orig[i].number != 0 && fetch(orig[i].number).hash != orig[i].hash
    requires next == cur[i := fetch(orig[i].number)]
    requires forall k :: 0 <= k < |cur| ==>
      RepairWalk(orig, next, i - 1, fetch)[k] ==
        (if AncestorAt(orig, i - 1, fetch) < k <= i - 1 && orig[k].number != 0 then fetch(orig[k].number) else next[k])
    ensures forall k :: 0 <= k < |cur| ==>
      RepairWalk(orig, next, i - 1, fetch)[k] ==
        (if AncestorAt(orig, i, fetch) < k <= i && orig[k].number != 0 then fetch(orig[k].number) else cur[k])
  {
    var a := AncestorAt(orig, i, fetch);
    assert a == AncestorAt(orig, i - 1, fetch) && a < i;
    forall k | 0 <= k < |cur|
      ensures RepairWalk(orig, next, i - 1, fetch)[k] ==
        (if a < k <= i && orig[k].number != 0 then fetch(orig[k].number) else cur[k])
    {
      if k == i {
        assert next[k] == fetch(orig[k].number);
      } else {
        assert next[k] == cur[k];
      }
    }
  }

  /** makeBlocksReorg: repair the stack below its tip. The flag is raised for
      the walk and lowered after it, so it is down once the step completes. */
  function MakeBlocksReorg(w: Watcher, fetch: nat -> Block): (r: Watcher)
    ensures |r.stack| == |w.stack|
    ensures r.lastFinalized == w.lastFinalized
    ensures !r.reorgInProgress
  {
    Watcher(RepairWalk(w.stack, w.stack, |w.stack| - 2, fetch), w.lastFinalized, false)
  }

  /** What repair leaves at index `k` of an ascending stack: every numbered
      entry strictly between the common ancestor and the tip is replaced by its
      on-chain copy; the ancestor, everything below it, and the tip are kept. */
  lemma RepairSpec(w: Watcher, fetch: nat -> Block)
    requires Ascending(w.stack) && ByNumber(fetch) && |w.stack| >= 1
    ensures var r := MakeBlocksReorg(w, fetch).stack;
            var a := AncestorAt(w.stack, |w.stack| - 2, fetch);
      && r[|r| - 1] == w.stack[|w.stack| - 1]
      && (forall k :: 0 <= k <= a ==> r[k] == w.stack[k])
      && (forall k :: a < k < |r| - 1 ==>
            r[k] == (if w.stack[k].number != 0 then fetch(w.stack[k].number) else w.stack[k]))
      && Ascending(r)
  {
    RepairWalkSpec(w.stack, w.stack, |w.stack| - 2, fetch);
  }

  /** When no entry below the tip still matches the node, repair rewrites every
      numbered entry below the tip and nothing in the result says so: the
      outcome has the same shape as a repair that found its ancestor. */
  lemma RepairExhaustedIsSilent(w: Watcher, fetch: nat -> Block)
    requires Ascending(w.stack) && ByNumber(fetch) && |w.stack| >= 1
    requires AncestorAt(w.stack, |w.stack| - 2, fetch) == -1
    ensures var r := MakeBlocksReorg(w, fetch);
      && |r.stack| == |w.stack|
      && !r.reorgInProgress
      && forall k :: 0 <= k < |w.stack| - 1 && w.stack[k].number != 0 ==>
           r.stack[k] == fetch(w.stack[k].number)
  {
    RepairSpec(w, fetch);
  }

  /** checkReorg: repair only when the tip breaks the parent link. */
  function CheckReorg(w: Watcher, fetch: nat -> Block): (r: Watcher)
    ensures !ForkAtTip(w.stack) ==> r == w
    ensures ForkAtTip(w.stack) ==> !r.reorgInProgress
    ensures |r.stack| == |w.stack| && r.lastFinalized == w.lastFinalized
  {
    if ForkAtTip(w.stack) then MakeBlocksReorg(w, fetch) else w
  }

  /** On an ascending stack and a node that answers by number, a broken
      parent link at the tip triggers the repair: every numbered entry
      strictly between the common ancestor and the tip becomes the node's
      block of that number, and everything else stays. */
  lemma CheckReorgRepairs(w: Watcher, fetch: nat -> Block)
    requires Ascending(w.stack) && ByNumber(fetch) && ForkAtTip(w.stack)
    ensures var r := CheckReorg(w, fetch).stack;
            var a := AncestorAt(w.stack, |w.stack| - 2, fetch);
      && |r| == |w.stack|
      && r[|r| - 1] == w.stack[|w.stack| - 1]
      && (forall k :: 0 <= k <= a ==> r[k] == w.stack[k])
      && (forall k :: a < k < |r| - 1 ==>
            r[k] == (if w.stack[k].number != 0 then fetch(w.stack[k].number) else w.stack[k]))
  {
    RepairSpec(w, fetch);
  }

  /** handleNewBlock: append an accepted head, then check for a fork. A
      rejected head leaves the watcher as it was. */
  function HandleNewBlock(w: Watcher, b: Block, fetch: nat -> Block): (r: Watcher)
    ensures !Accepts(w.stack, b) ==> r == w
    ensures Accepts(w.stack, b) ==> |r.stack| == |w.stack| + 1 && r.lastFinalized == w.lastFinalized
    ensures Accepts(w.stack, b) && !ForkAtTip(w.stack + [b]) ==> r == w.(stack := w.stack + [b])
    ensures Accepts(w.stack, b) && ForkAtTip(w.stack + [b]) ==> !r.reorgInProgress
  {
    if Accepts(w.stack, b) then CheckReorg(w.(stack := w.stack + [b]), fetch) else w
  }

  /** Appending an accepted head keeps the stack strictly ascending, and the
      head stays on top whether or not a repair ran. */
  lemma HandleNewBlockKeepsAscending(w: Watcher, b: Block, fetch: nat -> Block)
    requires Ascending(w.stack) && ByNumber(fetch)
    ensures Ascending(HandleNewBlock(w, b, fetch).stack)
    ensures Accepts(w.stack, b) ==>
      var s := HandleNewBlock(w, b, fetch).stack; s[|s| - 1] == b
  {
    if Accepts(w.stack, b) {
      var pushed := w.(stack := w.stack + [b]);
      assert Ascending(pushed.stack);
      if ForkAtTip(pushed.stack) {
        RepairSpec(pushed, fetch);
      }
    }
  }

  /** The onBlock handler of startWatching: hand the block to handleNewBlock
      and forward exactly that block downstream, accepted or not. */
  function OnBlock(w: Watcher, b: Block, fetch: nat -> Block): (r: (Watcher, seq<Block>))
    ensures r.1 == [b]
    ensures !Accepts(w.stack, b) ==> r.0 == w
    ensures r.0 == HandleNewBlock(w, b, fetch)
  {
    (HandleNewBlock(w, b, fetch), [b])
  }

  // ---------------------------------------------------------------------
  // Cold start
  // ---------------------------------------------------------------------

  /** `count` blocks fetched one by one from number `from` upwards. */
  function Backfill(from: nat, count: nat, fetch: nat -> Block): (r: seq<Block>)
    ensures |r| == count
    ensures forall k :: 0 <= k < count ==> r[k] == fetch(from + k)
  {
    if count == 0 then [] else Backfill(from, count - 1, fetch) + [fetch(from + count - 1)]
  }

  /** The size of the range `finalized - keep .. latest - 1`, never negative
      (`Array.from` clamps a negative length to 0). */
  function BackfillCount(finalized: nat, latest: nat, keep: nat): (n: nat)
    ensures n == 0 <==> latest + keep <= finalized
    ensures n > 0 ==> (finalized - keep) + n - 1 == latest - 1
  {
    if latest + keep <= finalized then 0 else latest + keep - finalized
  }

  datatype ColdStartOutcome = ColdStartOutcome(watcher: Watcher, notified: Option<seq<Block>>)

  /** coldStart, given the `"finalized"` and `"latest"` blocks. It aborts
      untouched when either tag has no number. Otherwise it records the
      finalized number, fetches `finalized - keep .. latest - 1` in ascending
      order, notifies them, and puts them below whatever the stack holds. A
      range starting below block 0 makes the first fetch reject after the
      boundary was recorded, so nothing else happens. */
  function ColdStart(w: Watcher, finalizedTag: Block, latestTag: Block, keep: nat, fetch: nat -> Block): (r: ColdStartOutcome)
    ensures finalizedTag.number == 0 || latestTag.number == 0 ==> r == ColdStartOutcome(w, None)
    ensures finalizedTag.number != 0 && latestTag.number != 0 ==>
      r.watcher.lastFinalized == finalizedTag.number && r.watcher.reorgInProgress == w.reorgInProgress
    ensures finalizedTag.number != 0 && latestTag.number != 0 && finalizedTag.number >= keep ==> r.notified.Some?
    ensures r.notified.None? ==> r.watcher.stack == w.stack
    ensures r.notified.Some? ==>
      var blocks := r.notified.value;
      && r.watcher.stack == blocks + w.stack
      && |blocks| == BackfillCount(finalizedTag.number, latestTag.number, keep)
      && forall k :: 0 <= k < |blocks| ==>
           finalizedTag.number - keep + k >= 0 && blocks[k] == fetch(finalizedTag.number - keep + k)
  {
    if finalizedTag.number == 0 || latestTag.number == 0 then ColdStartOutcome(w, None)
    else
      var finalized := finalizedTag.number;
      var start: int := finalized - keep;
      var count := BackfillCount(finalized, latestTag.number, keep);
      if count == 0 then
        ColdStartOutcome(w.(lastFinalized := finalized), Some([]))
      else if start < 0 then
        ColdStartOutcome(w.(lastFinalized := finalized), None)
      else
        var blocks := Backfill(start, count, fetch);
        ColdStartOutcome(w.(stack := blocks + w.stack, lastFinalized := finalized), Some(blocks))
  }

  /** startWatching: cold start only when the stack is empty. */
  function StartWatching(w: Watcher, finalizedTag: Block, latestTag: Block, keep: nat, fetch: nat -> Block): (r: ColdStartOutcome)
    ensures |w.stack| > 0 ==> r == ColdStartOutcome(w, None)
    ensures |w.stack| == 0 ==> r == ColdStart(w, finalizedTag, latestTag, keep, fetch)
    ensures |w.stack| == 0 && r.notified.Some? ==> r.watcher.stack == r.notified.value
  {
    if |w.stack| == 0 then ColdStart(w, finalizedTag, latestTag, keep, fetch) else ColdStartOutcome(w, None)
  }

  /** On a node that answers by number, the backfill is the consecutive range
      `finalized - keep .. latest - 1`, and placing it below a stack that starts
      at `latest` or later keeps the stack ascending. */
  lemma ColdStartRange(w: Watcher, finalizedTag: Block, latestTag: Block, keep: nat, fetch: nat -> Block)
    requires ByNumber(fetch) && Ascending(w.stack)
    requires |w.stack| == 0 || w.stack[0].number >= latestTag.number
    ensures var r := ColdStart(w, finalizedTag, latestTag, keep, fetch);
      && Ascending(r.watcher.stack)
      && (r.notified.Some? ==>
            Numbers(r.notified.value) == Seqs.Iota(finalizedTag.number - keep, |r.notified.value|))
  {
    var r := ColdStart(w, finalizedTag, latestTag, keep, fetch);
    if r.notified.Some? {
      var blocks := r.notified.value;
      var start: int := finalizedTag.number - keep;
      assert forall k :: 0 <= k < |blocks| ==> blocks[k].number == start + k;
      assert |blocks| == 0 || start + |blocks| == latestTag.number;
      ConsecutiveNumbers(blocks, start);
      ConsecutiveBelowAscending(blocks, w.stack, start);
    }
  }

  /** Consecutive numbers from `start` are `start, start + 1, ...`. */
  lemma ConsecutiveNumbers(blocks: seq<Block>, start: int)
    requires forall k :: 0 <= k < |blocks| ==> blocks[k].number == start + k
    ensures Numbers(blocks) == Seqs.Iota(start, |blocks|)
  {
    var ns := Numbers(blocks);
    var ids := Seqs.Iota(start, |blocks|);
    assert forall k :: 0 <= k < |blocks| ==> ns[k] == ids[k];
  }

  /** Consecutive numbers from `start`, placed below an ascending stack that
      begins past them, give an ascending stack. */
  lemma ConsecutiveBelowAscending(blocks: seq<Block>, stack: seq<Block>, start: int)
    requires forall k :: 0 <= k < |blocks| ==> blocks[k].number == start + k
    requires Ascending(stack)
    requires |blocks| == 0 || |stack| == 0 || stack[0].number >= start + |blocks|
    ensures Ascending(blocks + stack)
  {
    var s := blocks + stack;
    var b := |blocks|;
    forall i, j | 0 <= i < j < |s|
      ensures s[i].number < s[j].number
    {
      if j < b {
        assert s[i] == blocks[i] && s[j] == blocks[j];
      } else if i >= b {
        assert s[i] == stack[i - b] && s[j] == stack[j - b];
      } else {
        assert s[i] == blocks[i] && s[j] == stack[j - b];
        assert stack[0].number <= stack[j - b].number;
      }
    }
  }

  /** Finalized 100, latest 105 and the default depth 11 backfill blocks
      89 through 104: sixteen blocks. */
  lemma ColdStartExample(fetch: nat -> Block)
    requires ByNumber(fetch)
    ensures var r := ColdStart(Initial, Block(100, "f", "e"), Block(105, "l", "k"), DefaultKeep, fetch);
      && r.notified.Some?
      && |r.notified.value| == 16
      && r.notified.value[0].number == 89
      && r.notified.value[15].number == 104
      && r.watcher.lastFinalized == 100
      && r.watcher.stack == r.notified.value
  {
  }

  // ---------------------------------------------------------------------
  // Finalized pruning
  // ---------------------------------------------------------------------

  /** The lowest number pruning keeps. */
  function Cutoff(finalized: nat, keep: nat): int {
    finalized - keep
  }

  /** Kept by pruning: numbered and at or above the cutoff. */
  function KeptBy(cut: int): Block -> bool {
    (b: Block) => b.number != 0 && b.number >= cut
  }

  /** Removed by pruning: numbered and below the cutoff. */
  function RemovedBy(cut: int): Block -> bool {
    (b: Block) => b.number != 0 && b.number < cut
  }

  datatype PruneOutcome = PruneOutcome(watcher: Watcher, removed: Option<seq<nat>>)

  /** sliceFinalizedBlocks, given the `"finalized"` block. It does nothing
      while no boundary is stored or when the boundary is unchanged (any other
      value, lower ones included, proceeds). Otherwise it stores the new
      boundary, keeps the numbered blocks at or above `boundary - keep`, and
      reports the numbers below it to the callback. Unnumbered blocks leave
      the stack without being reported. A tag numbered 0 is the genesis
      boundary `0n`: the cutoff is `-keep`, every numbered block stays and the
      callback gets `[]`. */
  function SliceFinalizedBlocks(w: Watcher, finalizedTag: Block, keep: nat): (r: PruneOutcome)
    ensures w.lastFinalized == 0 || w.lastFinalized == finalizedTag.number ==> r == PruneOutcome(w, None)
    ensures r.removed.None? ==> r.watcher.stack == w.stack
    ensures w.lastFinalized != 0 && w.lastFinalized != finalizedTag.number ==>
      && r.watcher.lastFinalized == finalizedTag.number && r.removed.Some?
      && r.watcher.reorgInProgress == w.reorgInProgress
    ensures r.removed.Some? ==>
      var cut := Cutoff(finalizedTag.number, keep);
      && (forall b :: b in r.watcher.stack <==> b in w.stack && b.number != 0 && b.number >= cut)
      && (forall n :: n in r.removed.value ==> n != 0 && n < cut)
      && (forall b :: b in w.stack && b.number != 0 && b.number < cut ==> b.number in r.removed.value)
      && |r.watcher.stack| + |r.removed.value| <= |w.stack|
  {
    if w.lastFinalized == 0 || w.lastFinalized == finalizedTag.number then PruneOutcome(w, None)
    else
      var cut := Cutoff(finalizedTag.number, keep);
      var kept := Seqs.Filter(w.stack, KeptBy(cut));
      var removedBlocks := Seqs.Filter(w.stack, RemovedBy(cut));
      PruneSizes(w.stack, cut);
      PruneOutcome(w.(stack := kept, lastFinalized := finalizedTag.number), Some(Numbers(removedBlocks)))
  }

  /** A genesis tag keeps every numbered block, drops the unnumbered ones
      and reports nothing removed; a stack without numbered blocks is
      emptied. */
  lemma PruneAtGenesis(w: Watcher, finalizedTag: Block, keep: nat)
    requires w.lastFinalized != 0 && finalizedTag.number == 0
    ensures var r := SliceFinalizedBlocks(w, finalizedTag, keep);
      && r.removed == Some([])
      && r.watcher.stack == Seqs.Filter(w.stack, HasNumber)
      && r.watcher.lastFinalized == 0
  {
    var cut := Cutoff(0, keep);
    assert Seqs.Filter(w.stack, RemovedBy(cut)) == [] by {
      Seqs.FilterNone(w.stack, RemovedBy(cut));
    }
    Seqs.FilterSame(w.stack, KeptBy(cut), HasNumber);
  }

  /** Kept and removed blocks together are at most the stack. */
  lemma {:induction false} PruneSizes(s: seq<Block>, cut: int)
    ensures |Seqs.Filter(s, KeptBy(cut))| + |Seqs.Filter(s, RemovedBy(cut))| <= |s|
  {
    if |s| > 0 {
      PruneSizes(s[1..], cut);
    }
  }

  /** The numbers of a concatenation are the concatenated numbers. */
  lemma NumbersAppend(a: seq<Block>, b: seq<Block>)
    ensures Numbers(a + b) == Numbers(a) + Numbers(b)
  {
  }

  /** On an ascending stack the numbered blocks are the removed ones, in
      order, followed by the kept ones. */
  lemma PruneSplit(s: seq<Block>, cut: int)
    requires Ascending(s)
    ensures Numbers(Seqs.Filter(s, HasNumber))
      == Numbers(Seqs.Filter(s, RemovedBy(cut))) + Numbers(Seqs.Filter(s, KeptBy(cut)))
  {
    Seqs.FilterSplit(s, HasNumber, RemovedBy(cut), KeptBy(cut));
    NumbersAppend(Seqs.Filter(s, RemovedBy(cut)), Seqs.Filter(s, KeptBy(cut)));
  }

  /** On an ascending stack pruning splits the numbered blocks at the cutoff:
      the reported numbers, in order, followed by the numbers of the kept
      blocks, which stay ascending. */
  lemma PruneSplitsAtCutoff(w: Watcher, finalizedTag: Block, keep: nat)
    requires Ascending(w.stack)
    ensures var r := SliceFinalizedBlocks(w, finalizedTag, keep);
      && Ascending(r.watcher.stack)
      && (r.removed.Some? ==>
            Numbers(Seqs.Filter(w.stack, HasNumber)) == r.removed.value + Numbers(r.watcher.stack))
  {
    var cut := Cutoff(finalizedTag.number, keep);
    PruneSplit(w.stack, cut);
    AscendingFilter(w.stack, KeptBy(cut));
  }

  /** A filter of an ascending stack is ascending. */
  lemma {:induction false} AscendingFilter(s: seq<Block>, p: Block -> bool)
    requires Ascending(s)
    ensures Ascending(Seqs.Filter(s, p))
  {
    if |s| > 0 {
      AscendingFilter(s[1..], p);
      var rest := Seqs.Filter(s[1..], p);
      assert forall k :: 0 <= k < |rest| ==> rest[k] in s[1..];
    }
  }

  // ---------------------------------------------------------------------
  // Current state
  // ---------------------------------------------------------------------

  /** Numbered and above the finalized boundary. */
  function LatestBy(finalized: nat): Block -> bool {
    (b: Block) => b.number != 0 && b.number > finalized
  }

  /** Numbered and at or below the finalized boundary. */
  function FinalizedBy(finalized: nat): Block -> bool {
    (b: Block) => b.number != 0 && b.number <= finalized
  }

  datatype CurrentState = CurrentState(latestBlocks: seq<Block>, finalizedBlocks: seq<Block>)

  /** getCurrentState: split the numbered blocks of the stack at the stored
      boundary; unnumbered blocks appear in neither part. */
  function GetCurrentState(w: Watcher): (r: CurrentState)
    ensures forall b :: b in r.latestBlocks <==> b in w.stack && b.number != 0 && b.number > w.lastFinalized
    ensures forall b :: b in r.finalizedBlocks <==> b in w.stack && b.number != 0 && b.number <= w.lastFinalized
    ensures forall b :: !(b in r.latestBlocks && b in r.finalizedBlocks)
  {
    CurrentState(Seqs.Filter(w.stack, LatestBy(w.lastFinalized)), Seqs.Filter(w.stack, FinalizedBy(w.lastFinalized)))
  }

  /** On an ascending stack the two parts are consecutive: the numbered
      blocks are exactly the finalized part followed by the latest part. */
  lemma CurrentStatePartitions(w: Watcher)
    requires Ascending(w.stack)
    ensures var r := GetCurrentState(w);
      Seqs.Filter(w.stack, HasNumber) == r.finalizedBlocks + r.latestBlocks
  {
    Seqs.FilterSplit(w.stack, HasNumber, FinalizedBy(w.lastFinalized), LatestBy(w.lastFinalized));
  }
}

=== FILE: chain.dfy ===
/** The chain data the indexer consumes from the node. */
module Chain {

  type Hash = string

  /** A block as the node delivers it. `number` 0 stands both for the genesis
      block and for a block whose number is absent (a pending block): the
      indexer's checks test the number for truthiness or default it to 0, so
      they treat the two alike. Only the pruning arithmetic would tell them
      apart (`null - keep` throws where `0n - keep` does not), and there the
      model follows `0n`. The rest of the payload plays no part in the logic
      and is left out. */
  datatype Block = Block(number: nat, hash: Hash, parentHash: Hash)

  /** `!!block.number`. */
  predicate HasNumber(b: Block) {
    b.number != 0
  }

  /** The node answers a request for block `n` with a block numbered `n`. */
  ghost predicate ByNumber(fetch: nat -> Block) {
    forall n :: fetch(n).number == n
  }

  /** `findIndex(b => b.number === n)`: the first index holding number `n`, or -1. */
  function FindIndex(s: seq<Block>, n: nat): (r: int)
    ensures -1 <= r < |s|
    ensures r == -1 <==> forall k :: 0 <= k < |s| ==> s[k].number != n
    ensures r >= 0 ==> s[r].number == n && forall k :: 0 <= k < r ==> s[k].number != n
  {
    if |s| == 0 then -1
    else if s[0].number == n then 0
    else
      var r := FindIndex(s[1..], n);
      if r == -1 then -1 else r + 1
  }

  /** The block numbers of `s`, in order (`blocks.map(b => b.number)`). */
  function Numbers(s: seq<Block>): (r: seq<nat>)
    ensures |r| == |s|
    ensures forall k :: 0 <= k < |s| ==> r[k] == s[k].number
  {
    if |s| == 0 then [] else [s[0].number] + Numbers(s[1..])
  }
}

=== FILE: keys_manager.dfy ===
/** The version-scoped job bookkeeping of `src/keysManager.ts`. The manager
    holds two maps: block number to `{hash, nonce}` and nonce to
    `{jobId, isLoaded}`. Each section the source runs under its lock is one
    pure transition over a `State` value. The nonce resolver is the oracle
    `nonceAt`, and nanoid is a counter: every new job id is `nextToken`, which
    then advances. Work the source launches without awaiting (the key fetch of
    `_addKeysForNonce`, the wait-then-save of `_saveBlock`) is returned as a
    list of `Job` and `SaveTask` values. */
module KeysManager {
  import opened Wrappers
  import opened Chain
  import Seqs
  import SigningKeys

  type Nonce = int

  /** A job id. */
  type Token = nat

  datatype BlockEntry = BlockEntry(hash: Hash, nonce: Nonce)

  datatype NonceData = NonceData(jobId: Token, isLoaded: bool)

  datatype State = State(blocks: map<nat, BlockEntry>, nonces: map<Nonce, NonceData>, nextToken: Token)

  /** A freshly constructed manager. */
  const Empty := State(map[], map[], 0)

  /** Every job id held was minted before `nextToken`, so the next ids are
      new. */
  ghost predicate TokensFresh(s: State) {
    forall n :: n in s.nonces ==> s.nonces[n].jobId < s.nextToken
  }

  /** A block paired with the nonce resolved for its number. */
  datatype BlockWithNonce = BlockWithNonce(blockNumber: nat, nonce: Nonce, block: Block)

  /** A launched `_addKeysForNonce(nonce, blockNumber, jobId)`. */
  datatype Job = Job(nonce: Nonce, blockNumber: nat, jobId: Token)

  /** A launched `_saveBlock(block, nonce, jobId)`. */
  datatype SaveTask = SaveTask(block: Block, nonce: Nonce, jobId: Token)

  /** What one onChange leaves behind. */
  datatype Changed = Changed(state: State, jobs: seq<Job>, saves: seq<SaveTask>)

  /** `reduce` without an initial value on an empty array throws. */
  datatype Error = EmptyReorg

  // ---------------------------------------------------------------------
  // Resolving nonces
  // ---------------------------------------------------------------------

  /** getNonces: one resolved nonce per number, in order. */
  function ResolveNonces(ids: seq<nat>, nonceAt: nat -> Nonce): (r: seq<Nonce>)
    ensures |r| == |ids|
    ensures forall k :: 0 <= k < |ids| ==> r[k] == nonceAt(ids[k])
  {
    if |ids| == 0 then [] else [nonceAt(ids[0])] + ResolveNonces(ids[1..], nonceAt)
  }

  // ---------------------------------------------------------------------
  // Reorg pass
  // ---------------------------------------------------------------------

  /** The nonce stored for the block just below the lowest reorged number,
      if that block is tracked. */
  function LastGoodNonce(s: State, ids: seq<nat>): (r: Option<Nonce>)
    requires |ids| > 0
    ensures r.Some? <==> Seqs.Min(ids) - 1 >= 0 && Seqs.Min(ids) - 1 in s.blocks
    ensures r.Some? ==> r.value == s.blocks[Seqs.Min(ids) - 1].nonce
  {
    var before := Seqs.Min(ids) - 1;
    if before >= 0 && before in s.blocks then Some(s.blocks[before].nonce) else None
  }

  /** Above the last good nonce. A comparison with an untracked predecessor
      (`nonce > undefined`) is false. */
  function AboveGood(good: Option<Nonce>): Nonce -> bool {
    (n: Nonce) => good.Some? && n > good.value
  }

  /** The stale nonces of a reorg: the distinct resolved nonces above the one
      stored for the block below the reorg. An empty reorg set throws. */
  function StaleNonces(s: State, newBlocks: seq<Block>, nonceAt: nat -> Nonce): (r: Result<seq<Nonce>, Error>)
    ensures r.Failure? <==> |newBlocks| == 0
    ensures r.Success? ==> Seqs.Distinct(r.value)
    ensures r.Success? ==>
      var resolved := ResolveNonces(Numbers(newBlocks), nonceAt);
      var good := LastGoodNonce(s, Numbers(newBlocks));
      forall n :: n in r.value <==> n in resolved && good.Some? && n > good.value
  {
    if |newBlocks| == 0 then Failure(EmptyReorg)
    else
      var ids := Numbers(newBlocks);
      var good := LastGoodNonce(s, ids);
      var stale := Seqs.Filter(Seqs.Dedup(ResolveNonces(ids, nonceAt)), AboveGood(good));
      FilterDistinct(Seqs.Dedup(ResolveNonces(ids, nonceAt)), AboveGood(good));
      Success(stale)
  }

  /** `getNonce` asks the registry for its current nonce whatever block it
      is given, so in the program every block of a change resolves to the
      same nonce `c`. The reorg pass then drops `c` alone, and only when it
      lies above the last good nonce. */
  lemma CurrentNonceReorg(s: State, newBlocks: seq<Block>, nonceAt: nat -> Nonce, c: Nonce)
    requires |newBlocks| > 0
    requires forall id :: nonceAt(id) == c
    ensures var r := StaleNonces(s, newBlocks, nonceAt);
      var good := LastGoodNonce(s, Numbers(newBlocks));
      && r.Success? && |r.value| <= 1
      && forall n :: n in r.value <==> n == c && good.Some? && c > good.value
  {
    var r := StaleNonces(s, newBlocks, nonceAt);
    var resolved := ResolveNonces(Numbers(newBlocks), nonceAt);
    assert resolved[0] == c;
    assert forall n :: n in resolved ==> n == c;
    assert forall i :: 0 <= i < |r.value| ==> r.value[i] in r.value;
    Seqs.DistinctSingle(r.value, c);
  }

  /** Filtering a sequence without repeats leaves none. */
  lemma {:induction false} FilterDistinct<T(!new)>(s: seq<T>, p: T -> bool)
    requires Seqs.Distinct(s)
    ensures Seqs.Distinct(Seqs.Filter(s, p))
  {
    if |s| > 0 {
      FilterDistinct(s[1..], p);
      assert s[0] !in s[1..];
    }
  }

  /** Delete the given nonces from the nonce map; nothing else changes. */
  function DropNonces(s: State, stale: seq<Nonce>): (r: State)
    ensures r.blocks == s.blocks && r.nextToken == s.nextToken
    ensures forall n :: n in r.nonces <==> n in s.nonces && n !in stale
    ensures forall n :: n in r.nonces ==> r.nonces[n] == s.nonces[n]
  {
    s.(nonces := s.nonces - (set n | n in stale))
  }

  /** The reorg pass of onChange, run under the lock before anything else. */
  function ReorgPass(s: State, newBlocks: seq<Block>, nonceAt: nat -> Nonce): (r: Result<State, Error>)
    ensures r.Failure? <==> |newBlocks| == 0
    ensures r.Success? ==> r.value.blocks == s.blocks && r.value.nextToken == s.nextToken
    ensures r.Success? ==> forall n :: n in r.value.nonces ==> n in s.nonces && r.value.nonces[n] == s.nonces[n]
    ensures r.Success? && LastGoodNonce(s, Numbers(newBlocks)).None? ==> r.value == s
    ensures r.Success? ==>
      var good := LastGoodNonce(s, Numbers(newBlocks));
      forall n :: n in r.value.nonces <==>
        n in s.nonces && !(n in ResolveNonces(Numbers(newBlocks), nonceAt) && good.Some? && n > good.value)
  {
    match StaleNonces(s, newBlocks, nonceAt)
    case Failure(e) => Failure(e)
    case Success(stale) =>
      var noGood := LastGoodNonce(s, Numbers(newBlocks)).None?;
      assert noGood ==> forall n :: n !in stale;
      assert noGood ==> s.nonces - (set n | n in stale) == s.nonces;
      Success(DropNonces(s, stale))
  }

  /** A value seen twice is kept once. */
  lemma DedupTwice(x: int)
    ensures Seqs.Dedup([x, x]) == [x]
  {
    assert [x, x][..1] == [x];
    assert Seqs.Dedup([x]) == [x] by { assert [x][..0] == []; }
  }

  /** Reorg of blocks 101 and 102, block 100 stored with nonce 5, and the
      resolver answering 6 for both: nonce 6 is stale. */
  lemma StaleNoncesExample(s: State, nonceAt: nat -> Nonce, blocks: seq<Block>)
    requires 100 in s.blocks && s.blocks[100].nonce == 5
    requires |blocks| == 2 && blocks[0].number == 101 && blocks[1].number == 102
    requires nonceAt(101) == 6 && nonceAt(102) == 6
    ensures StaleNonces(s, blocks, nonceAt) == Success([6])
  {
    NumbersOfTwo(blocks);
    GoodBelowReorg(s);
    ResolveTwice(nonceAt);
    SixAboveFive();
    StaleNoncesOf(s, blocks, nonceAt, Some(5), [6]);
  }

  lemma GoodBelowReorg(s: State)
    requires 100 in s.blocks && s.blocks[100].nonce == 5
    ensures LastGoodNonce(s, [101, 102]) == Some(5)
  {
    assert Seqs.Min([101, 102]) == 101;
  }

  lemma SixAboveFive()
    ensures Seqs.Filter([6], AboveGood(Some(5))) == [6]
  {
    assert [6][1..] == [];
  }

  lemma NumbersOfTwo(blocks: seq<Block>)
    requires |blocks| == 2 && blocks[0].number == 101 && blocks[1].number == 102
    ensures Numbers(blocks) == [101, 102]
  {
  }

  lemma ResolveTwice(nonceAt: nat -> Nonce)
    requires nonceAt(101) == 6 && nonceAt(102) == 6
    ensures Seqs.Dedup(ResolveNonces([101, 102], nonceAt)) == [6]
  {
    assert ResolveNonces([101, 102], nonceAt) == [6, 6];
    DedupTwice(6);
  }

  /** StaleNonces, once its last good nonce and its distinct resolved nonces
      are known. */
  lemma StaleNoncesOf(s: State, blocks: seq<Block>, nonceAt: nat -> Nonce, good: Option<Nonce>, nonces: seq<Nonce>)
    requires |blocks| > 0
    requires LastGoodNonce(s, Numbers(blocks)) == good
    requires Seqs.Dedup(ResolveNonces(Numbers(blocks), nonceAt)) == nonces
    ensures StaleNonces(s, blocks, nonceAt) == Success(Seqs.Filter(nonces, AboveGood(good)))
  {
  }

  /** The same reorg drops nonce 6 from the map and keeps nonce 5. */
  lemma ReorgExample(nonceAt: nat -> Nonce, h: Hash, other: Hash)
    requires nonceAt(101) == 6 && nonceAt(102) == 6
    ensures
      var s := State(map[100 := BlockEntry(h, 5)], map[5 := NonceData(0, true), 6 := NonceData(1, false)], 2);
      ReorgPass(s, [Block(101, h, other), Block(102, other, h)], nonceAt)
        == Success(s.(nonces := map[5 := NonceData(0, true)]))
  {
    var s := State(map[100 := BlockEntry(h, 5)], map[5 := NonceData(0, true), 6 := NonceData(1, false)], 2);
    StaleNoncesExample(s, nonceAt, [Block(101, h, other), Block(102, other, h)]);
    assert s.nonces - (set n | n in [6]) == map[5 := NonceData(0, true)];
  }

  // ---------------------------------------------------------------------
  // Change filter and pairing with nonces
  // ---------------------------------------------------------------------

  /** Numbered and either untracked or tracked under another hash. */
  function ChangedFor(s: State): Block -> bool {
    (b: Block) => b.number != 0 && (b.number !in s.blocks || s.blocks[b.number].hash != b.hash)
  }

  /** The hash filter of onChange: blocks whose stored hash is unchanged are
      skipped. */
  function FilterChanged(s: State, bs: seq<Block>): (r: seq<Block>)
    ensures forall b :: b in r <==>
      b in bs && b.number != 0 && (b.number !in s.blocks || s.blocks[b.number].hash != b.hash)
    ensures forall k :: 0 <= k < |r| ==> r[k].number != 0
  {
    Seqs.Filter(bs, ChangedFor(s))
  }

  /** Pair every block number with its resolved nonce and with the first
      block carrying that number (`newBlocks.find`). */
  function WithNonces(bs: seq<Block>, nonceAt: nat -> Nonce): (r: seq<BlockWithNonce>)
    ensures |r| == |bs|
    ensures forall k :: 0 <= k < |bs| ==>
      && r[k].blockNumber == bs[k].number
      && r[k].nonce == nonceAt(bs[k].number)
      && r[k].block == bs[FindIndex(bs, bs[k].number)]
  {
    seq(|bs|, k requires 0 <= k < |bs| =>
      var id := bs[k].number;
      BlockWithNonce(id, nonceAt(id), bs[FindIndex(bs, id)]))
  }

  /** Two items with the same number are the same item. */
  ghost predicate Consistent(items: seq<BlockWithNonce>) {
    forall i, j :: 0 <= i < |items| && 0 <= j < |items| && items[i].blockNumber == items[j].blockNumber ==>
      items[i] == items[j]
  }

  lemma WithNoncesConsistent(bs: seq<Block>, nonceAt: nat -> Nonce)
    ensures Consistent(WithNonces(bs, nonceAt))
  {
  }

  /** The nonces of the items, in order. */
  function ItemNonces(items: seq<BlockWithNonce>): (r: seq<Nonce>)
    ensures |r| == |items|
    ensures forall k :: 0 <= k < |items| ==> r[k] == items[k].nonce
  {
    if |items| == 0 then [] else [items[0].nonce] + ItemNonces(items[1..])
  }

  /** The numbers of the items carrying `nonce`. */
  function HeightsOf(items: seq<BlockWithNonce>, nonce: Nonce): (r: seq<int>)
    ensures forall h :: h in r <==> exists k :: 0 <= k < |items| && items[k].nonce == nonce && items[k].blockNumber == h
  {
    if |items| == 0 then []
    else (if items[0].nonce == nonce then [items[0].blockNumber as int] else []) + HeightsOf(items[1..], nonce)
  }

  /** The height a new nonce's keys are fetched at: the lowest number among
      the items carrying it (the first after sorting by number). Only nonces
      of the items are ever asked for; any other gets 0. */
  function FetchHeight(items: seq<BlockWithNonce>, nonce: Nonce): (r: nat)
    ensures (forall k :: 0 <= k < |items| ==> items[k].nonce != nonce) ==> r == 0
  {
    var hs := HeightsOf(items, nonce);
    if |hs| == 0 then 0 else
      assert forall h :: h in hs ==> h >= 0;
      Seqs.Min(hs)
  }

  /** The fetch height is carried by one of the nonce's items and is at most
      every other one's number. */
  lemma FetchHeightIsLowest(items: seq<BlockWithNonce>, nonce: Nonce)
    requires nonce in ItemNonces(items)
    ensures exists k :: 0 <= k < |items| && items[k].nonce == nonce && items[k].blockNumber == FetchHeight(items, nonce)
    ensures forall k :: 0 <= k < |items| && items[k].nonce == nonce ==> FetchHeight(items, nonce) <= items[k].blockNumber
  {
    var hs := HeightsOf(items, nonce);
    var j :| 0 <= j < |items| && ItemNonces(items)[j] == nonce;
    assert items[j].blockNumber in hs;
    assert FetchHeight(items, nonce) in hs;
    assert forall k :: 0 <= k < |items| && items[k].nonce == nonce ==> items[k].blockNumber in hs;
  }

  // ---------------------------------------------------------------------
  // Job creation and block recording
  // ---------------------------------------------------------------------

  /** Not yet in the nonce map. */
  function Untracked(s: State): Nonce -> bool {
    (n: Nonce) => n !in s.nonces
  }

  /** The job-creation loop: one new job per nonce in `toLoad`, each with the
      next id, `isLoaded` false, fetched at the nonce's lowest height. */
  function CreateJobs(s: State, items: seq<BlockWithNonce>, toLoad: seq<Nonce>): (r: (State, seq<Job>))
    requires Seqs.Distinct(toLoad)
    ensures r.0.blocks == s.blocks
    ensures r.0.nextToken == s.nextToken + |toLoad|
    ensures forall n :: n in r.0.nonces <==> n in s.nonces || n in toLoad
    ensures forall n :: n in s.nonces && n !in toLoad ==> r.0.nonces[n] == s.nonces[n]
    ensures |r.1| == |toLoad|
    ensures forall k :: 0 <= k < |toLoad| ==>
      && r.1[k] == Job(toLoad[k], FetchHeight(items, toLoad[k]), s.nextToken + k)
      && r.0.nonces[toLoad[k]] == NonceData(s.nextToken + k, false)
  {
    if |toLoad| == 0 then (s, [])
    else
      var init := toLoad[..|toLoad| - 1];
      var n := toLoad[|toLoad| - 1];
      assert Seqs.Distinct(init) by {
        assert forall k :: 0 <= k < |init| ==> init[k] == toLoad[k];
      }
      var rest := CreateJobs(s, items, init);
      var id := rest.0.nextToken;
      var state := rest.0.(nonces := rest.0.nonces[n := NonceData(id, false)], nextToken := id + 1);
      var jobs := rest.1 + [Job(n, FetchHeight(items, n), id)];
      assert forall m :: m in toLoad <==> m in init || m == n by {
        SplitLast(toLoad);
      }
      assert forall k :: 0 <= k < |toLoad| ==>
        && jobs[k] == Job(toLoad[k], FetchHeight(items, toLoad[k]), s.nextToken + k)
        && state.nonces[toLoad[k]] == NonceData(s.nextToken + k, false)
      by {
        forall k | 0 <= k < |toLoad|
          ensures jobs[k] == Job(toLoad[k], FetchHeight(items, toLoad[k]), s.nextToken + k)
          ensures state.nonces[toLoad[k]] == NonceData(s.nextToken + k, false)
        {
          if k < |init| {
            assert toLoad[k] == init[k] && init[k] != n;
            assert jobs[k] == rest.1[k];
          } else {
            assert toLoad[k] == n && id == s.nextToken + k;
            assert jobs[k] == Job(n, FetchHeight(items, n), id);
          }
        }
      }
      (state, jobs)
  }

  lemma SplitLast<T>(s: seq<T>)
    requires |s| > 0
    ensures s == s[..|s| - 1] + [s[|s| - 1]]
  {
  }

  /** The numbers of the items, in order. */
  function ItemNumbers(items: seq<BlockWithNonce>): (r: seq<nat>)
    ensures |r| == |items|
    ensures forall k :: 0 <= k < |items| ==> r[k] == items[k].blockNumber
  {
    if |items| == 0 then [] else [items[0].blockNumber] + ItemNumbers(items[1..])
  }

  /** The entry recorded for an item. */
  function EntryOf(item: BlockWithNonce): BlockEntry {
    BlockEntry(item.block.hash, item.nonce)
  }

  /** The recording loop over the blocks map: `{hash, nonce}` stored for every
      item in order, every other number left alone. A later item with the
      same number overwrites an earlier one, which is harmless as the items
      are consistent. */
  function RecordAll(blocks: map<nat, BlockEntry>, items: seq<BlockWithNonce>): (r: map<nat, BlockEntry>)
    requires Consistent(items)
    ensures forall n :: n in r <==> n in blocks || n in ItemNumbers(items)
    ensures forall n :: n in blocks && n !in ItemNumbers(items) ==> r[n] == blocks[n]
    ensures forall k :: 0 <= k < |items| ==> items[k].blockNumber in r && r[items[k].blockNumber] == EntryOf(items[k])
    decreases |items|
  {
    if |items| == 0 then blocks
    else
      var first := items[0];
      assert Consistent(items[1..]) by {
        ConsistentTail(items);
      }
      var r := RecordAll(blocks[first.blockNumber := EntryOf(first)], items[1..]);
      assert first.blockNumber in r && r[first.blockNumber] == EntryOf(first) by {
        if first.blockNumber in ItemNumbers(items[1..]) {
          var j :| 0 <= j < |items[1..]| && ItemNumbers(items[1..])[j] == first.blockNumber;
          assert items[j + 1] == first;
        }
      }
      r
  }

  lemma ConsistentTail(items: seq<BlockWithNonce>)
    requires Consistent(items) && |items| > 0
    ensures Consistent(items[1..])
  {
    var t := items[1..];
    forall i, j | 0 <= i < |t| && 0 <= j < |t| && t[i].blockNumber == t[j].blockNumber
      ensures t[i] == t[j]
    {
      assert items[i + 1] == t[i] && items[j + 1] == t[j];
    }
  }

  /** The saves launched by the recording loop, one per item, each under the
      id the nonce map holds for its nonce. */
  function SaveTasks(s: State, items: seq<BlockWithNonce>): (r: seq<SaveTask>)
    requires forall k :: 0 <= k < |items| ==> items[k].nonce in s.nonces
    ensures |r| == |items|
    ensures forall k :: 0 <= k < |items| ==>
      r[k] == SaveTask(items[k].block, items[k].nonce, s.nonces[items[k].nonce].jobId)
  {
    seq(|items|, k requires 0 <= k < |items| =>
      SaveTask(items[k].block, items[k].nonce, s.nonces[items[k].nonce].jobId))
  }

  // ---------------------------------------------------------------------
  // onChange
  // ---------------------------------------------------------------------

  /** The nonces to load: the distinct nonces of the items, in order of first
      appearance, that the nonce map does not hold. */
  function NoncesToLoad(s: State, items: seq<BlockWithNonce>): (r: seq<Nonce>)
    ensures Seqs.Distinct(r)
    ensures forall n :: n in r <==> n in ItemNonces(items) && n !in s.nonces
  {
    var nonces := Seqs.Dedup(ItemNonces(items));
    FilterDistinct(nonces, Untracked(s));
    Seqs.Filter(nonces, Untracked(s))
  }

  /** The locked section of onChange: one job per nonce not yet held, then
      every item recorded and its save launched. */
  function Commit(s: State, items: seq<BlockWithNonce>): (c: Changed)
    requires Consistent(items)
    ensures c.state.nextToken == s.nextToken + |c.jobs|
    ensures forall n :: n in c.state.nonces <==> n in s.nonces || n in JobNonces(c.jobs)
    ensures JobNonces(c.jobs) == NoncesToLoad(s, items)
  {
    var toLoad := NoncesToLoad(s, items);
    var (s2, jobs) := CreateJobs(s, items, toLoad);
    JobNoncesAre(jobs, toLoad);
    assert forall k :: 0 <= k < |items| ==> items[k].nonce in s2.nonces by {
      forall k | 0 <= k < |items|
        ensures items[k].nonce in s2.nonces
      {
        assert ItemNonces(items)[k] == items[k].nonce;
      }
    }
    Changed(s2.(blocks := RecordAll(s2.blocks, items)), jobs, SaveTasks(s2, items))
  }

  /** Everything onChange does after the reorg pass: the hash filter, the
      pairing with nonces, then the locked section. */
  function ProcessChanges(s: State, newBlocks: seq<Block>, nonceAt: nat -> Nonce): (c: Changed)
    ensures c.state.nextToken == s.nextToken + |c.jobs|
    ensures forall n :: n in c.state.nonces <==> n in s.nonces || n in JobNonces(c.jobs)
  {
    Commit(s, Pairs(s, newBlocks, nonceAt))
  }

  /** The locked section leaves the entry of every nonce already held
      untouched, so no such nonce gets a second job. */
  lemma CommitKeepsHeldNonces(s: State, items: seq<BlockWithNonce>)
    requires Consistent(items)
    ensures var c := Commit(s, items);
      && (forall n :: n in s.nonces ==> c.state.nonces[n] == s.nonces[n])
      && (forall k :: 0 <= k < |c.jobs| ==> c.jobs[k].nonce !in s.nonces)
  {
    var toLoad := NoncesToLoad(s, items);
    var (s2, jobs) := CreateJobs(s, items, toLoad);
    assert Commit(s, items).state.nonces == s2.nonces && Commit(s, items).jobs == jobs;
    assert forall n :: n in s.nonces ==> n !in toLoad;
  }

  /** Every job the locked section creates is for a distinct nonce, carries a
      new id and is entered in the nonce map as not loaded. */
  lemma CommitJobs(s: State, items: seq<BlockWithNonce>)
    requires Consistent(items)
    ensures var c := Commit(s, items);
      && Seqs.Distinct(JobNonces(c.jobs))
      && forall k :: 0 <= k < |c.jobs| ==>
           && c.jobs[k].jobId == s.nextToken + k
           && c.state.nonces[c.jobs[k].nonce] == NonceData(c.jobs[k].jobId, false)
  {
    var toLoad := NoncesToLoad(s, items);
    var r := CreateJobs(s, items, toLoad);
    var c := Commit(s, items);
    assert c.jobs == r.1 && c.state.nonces == r.0.nonces;
    CreateJobsNumbered(s, items, toLoad);
  }

  /** The jobs of CreateJobs carry distinct nonces and consecutive fresh ids,
      and each nonce is entered unloaded under its job's id. */
  lemma CreateJobsNumbered(s: State, items: seq<BlockWithNonce>, toLoad: seq<Nonce>)
    requires Seqs.Distinct(toLoad)
    ensures var r := CreateJobs(s, items, toLoad);
      && Seqs.Distinct(JobNonces(r.1))
      && forall k :: 0 <= k < |r.1| ==>
           && r.1[k].jobId == s.nextToken + k
           && r.0.nonces[r.1[k].nonce] == NonceData(r.1[k].jobId, false)
  {
    var r := CreateJobs(s, items, toLoad);
    JobNoncesAre(r.1, toLoad);
  }


  /** The jobs' nonces, read off one by one. */
  lemma JobNoncesAre(jobs: seq<Job>, nonces: seq<Nonce>)
    requires |jobs| == |nonces|
    requires forall k :: 0 <= k < |jobs| ==> jobs[k].nonce == nonces[k]
    ensures JobNonces(jobs) == nonces
  {
  }

  /** Every launched save carries the id the nonce map holds for its nonce,
      and its block is recorded under that nonce. */
  lemma CommitSaves(s: State, items: seq<BlockWithNonce>)
    requires Consistent(items)
    ensures var c := Commit(s, items);
      forall k :: 0 <= k < |c.saves| ==>
        var t := c.saves[k];
        && t.nonce in c.state.nonces
        && t.jobId == c.state.nonces[t.nonce].jobId
        && c.state.blocks[items[k].blockNumber] == BlockEntry(t.block.hash, t.nonce)
  {
    var c := Commit(s, items);
    forall k | 0 <= k < |c.saves|
      ensures c.state.blocks[items[k].blockNumber] == BlockEntry(c.saves[k].block.hash, c.saves[k].nonce)
    {
      assert c.saves[k].block == items[k].block && c.saves[k].nonce == items[k].nonce;
      assert c.state.blocks[items[k].blockNumber] == EntryOf(items[k]);
    }
  }

  /** The hash filter followed by the pairing with nonces. */
  function Pairs(s: State, newBlocks: seq<Block>, nonceAt: nat -> Nonce): (items: seq<BlockWithNonce>)
    ensures Consistent(items)
    ensures forall k :: 0 <= k < |items| ==> items[k].block.number == items[k].blockNumber
    ensures forall k :: 0 <= k < |items| ==> items[k].nonce == nonceAt(items[k].blockNumber)
  {
    var changedBlocks := FilterChanged(s, newBlocks);
    WithNoncesConsistent(changedBlocks, nonceAt);
    WithNonces(changedBlocks, nonceAt)
  }

  /** With the current-nonce resolver of the program, one change launches
      at most one load job, and only for that nonce. */
  lemma CurrentNonceOneJob(s: State, newBlocks: seq<Block>, nonceAt: nat -> Nonce, c: Nonce)
    requires forall id :: nonceAt(id) == c
    ensures var jobs := ProcessChanges(s, newBlocks, nonceAt).jobs;
      |jobs| <= 1 && forall k :: 0 <= k < |jobs| ==> jobs[k].nonce == c
  {
    var items := Pairs(s, newBlocks, nonceAt);
    LoadOfOneNonce(s, items, c);
    assert JobNonces(Commit(s, items).jobs) == NoncesToLoad(s, items);
  }

  lemma LoadOfOneNonce(s: State, items: seq<BlockWithNonce>, c: Nonce)
    requires forall k :: 0 <= k < |items| ==> items[k].nonce == c
    ensures var toLoad := NoncesToLoad(s, items);
      |toLoad| <= 1 && forall n :: n in toLoad ==> n == c
  {
    var toLoad := NoncesToLoad(s, items);
    assert forall n :: n in ItemNonces(items) ==> n == c;
    assert forall i :: 0 <= i < |toLoad| ==> toLoad[i] in toLoad;
    Seqs.DistinctSingle(toLoad, c);
  }

  /** The locked section keeps every job id fresh. */
  lemma CommitKeepsFresh(s: State, items: seq<BlockWithNonce>)
    requires Consistent(items)
    requires TokensFresh(s)
    ensures TokensFresh(Commit(s, items).state)
  {
    var c := Commit(s, items);
    CommitKeepsHeldNonces(s, items);
    CommitJobs(s, items);
    forall n | n in c.state.nonces
      ensures c.state.nonces[n].jobId < c.state.nextToken
    {
      if n !in s.nonces {
        var k :| 0 <= k < |c.jobs| && JobNonces(c.jobs)[k] == n;
      }
    }
  }

  /** Processing keeps job ids fresh whenever they were. */
  lemma ProcessChangesKeepsFreshIf(s: State, newBlocks: seq<Block>, nonceAt: nat -> Nonce)
    ensures TokensFresh(s) ==> TokensFresh(ProcessChanges(s, newBlocks, nonceAt).state)
  {
    if TokensFresh(s) {
      CommitKeepsFresh(s, Pairs(s, newBlocks, nonceAt));
    }
  }

  /** onChange. Unnumbered blocks are dropped; a reorg first drops its stale
      nonces (and throws when no block is left); then the changes are
      processed. */
  function OnChange(s: State, changed: seq<Block>, isReorg: bool, nonceAt: nat -> Nonce): (r: Result<Changed, Error>)
    ensures r.Failure? <==> isReorg && forall k :: 0 <= k < |changed| ==> changed[k].number == 0
    ensures r.Success? && !isReorg ==> r.value == ProcessChanges(s, Seqs.Filter(changed, HasNumber), nonceAt)
    ensures r.Success? && TokensFresh(s) ==> TokensFresh(r.value.state)
    ensures r.Success? ==> r.value.state.nextToken == s.nextToken + |r.value.jobs|
  {
    var newBlocks := Seqs.Filter(changed, HasNumber);
    NoNumberedBlocks(changed);
    if !isReorg then
      ProcessChangesKeepsFreshIf(s, newBlocks, nonceAt);
      Success(ProcessChanges(s, newBlocks, nonceAt))
    else
      match ReorgPass(s, newBlocks, nonceAt)
      case Failure(e) => Failure(e)
      case Success(s1) =>
        assert TokensFresh(s) ==> TokensFresh(s1);
        ProcessChangesKeepsFreshIf(s1, newBlocks, nonceAt);
        Success(ProcessChanges(s1, newBlocks, nonceAt))
  }

  /** No numbered block among `bs` exactly when the numbered filter is empty. */
  lemma NoNumberedBlocks(bs: seq<Block>)
    ensures |Seqs.Filter(bs, HasNumber)| == 0 <==> forall k :: 0 <= k < |bs| ==> bs[k].number == 0
  {
    if |Seqs.Filter(bs, HasNumber)| == 0 {
      assert forall k :: 0 <= k < |bs| ==> bs[k] in bs;
    } else {
      assert Seqs.Filter(bs, HasNumber)[0] in bs;
    }
  }

  /** The nonces of the jobs, in order. */
  function JobNonces(jobs: seq<Job>): (r: seq<Nonce>)
    ensures |r| == |jobs|
    ensures forall k :: 0 <= k < |jobs| ==> r[k] == jobs[k].nonce
  {
    if |jobs| == 0 then [] else [jobs[0].nonce] + JobNonces(jobs[1..])
  }

  // ---------------------------------------------------------------------
  // Completion, save and cut-off
  // ---------------------------------------------------------------------

  /** The id check in `_addKeysForNonce`: the nonce is still tracked under
      this very job id. */
  predicate HoldsToken(s: State, nonce: Nonce, jobId: Token) {
    nonce in s.nonces && s.nonces[nonce].jobId == jobId
  }

  /** The locked tail of `_addKeysForNonce`: mark the job loaded if the nonce
      still carries this job id; otherwise change nothing. */
  function CompleteJob(s: State, nonce: Nonce, jobId: Token): (r: State)
    ensures r.blocks == s.blocks && r.nextToken == s.nextToken && r.nonces.Keys == s.nonces.Keys
    ensures !HoldsToken(s, nonce, jobId) ==> r == s
    ensures HoldsToken(s, nonce, jobId) ==> r.nonces[nonce] == NonceData(jobId, true)
    ensures forall n :: n in s.nonces && n != nonce ==> r.nonces[n] == s.nonces[n]
  {
    if HoldsToken(s, nonce, jobId) then s.(nonces := s.nonces[nonce := NonceData(jobId, true)]) else s
  }

  /** Completion keeps every job id fresh. */
  lemma CompleteJobKeepsFresh(s: State, nonce: Nonce, jobId: Token)
    requires TokensFresh(s)
    ensures TokensFresh(CompleteJob(s, nonce, jobId))
  {
  }

  /** _addKeysForNonce, given what its `getSigningKeys` call settled to:
      `None` when that call rejects (a key total or the operator count could
      not be read), and the per-operator keys otherwise. A rejection ends the
      job at its `await`, so the nonce is never marked loaded; a result goes
      through the locked id check of `CompleteJob`. The keys themselves are
      not kept in the state. */
  function AddKeysForNonce<K>(s: State, nonce: Nonce, jobId: Token, fetched: Option<seq<SigningKeys.OperatorKeys<K>>>): (r: State)
    ensures r.blocks == s.blocks && r.nextToken == s.nextToken && r.nonces.Keys == s.nonces.Keys
    ensures fetched.None? || !HoldsToken(s, nonce, jobId) ==> r == s
    ensures fetched.Some? && HoldsToken(s, nonce, jobId) ==>
      && r.nonces[nonce] == NonceData(jobId, true)
      && forall n :: n in s.nonces && n != nonce ==> r.nonces[n] == s.nonces[n]
  {
    match fetched
    case None => s
    case Some(_) => CompleteJob(s, nonce, jobId)
  }

  /** A job whose key fetch rejected leaves its nonce unloaded, so every save
      launched under its id keeps waiting for as long as nothing else
      touches the nonce. */
  lemma FailedFetchStallsSaves<K>(s: State, nonce: Nonce, jobId: Token, polls: seq<State>, recheck: State)
    requires nonce in s.nonces && s.nonces[nonce] == NonceData(jobId, false)
    requires forall k :: 0 <= k < |polls| ==>
      polls[k] == AddKeysForNonce<K>(s, nonce, jobId, None)
    ensures SaveBlock(polls, recheck, nonce, jobId) == Waiting
  {
    forall k | 0 <= k < |polls|
      ensures !Ready(polls[k], nonce, jobId)
    {
      assert polls[k] == s;
    }
  }

  /** A job superseded by an onChange can never complete: every job that
      onChange creates carries an id minted after all earlier ones, so the
      completion of any earlier job for that nonce leaves the state as is. */
  lemma SupersededCompletionIgnored(s: State, changed: seq<Block>, isReorg: bool, nonceAt: nat -> Nonce, oldJobId: Token)
    requires TokensFresh(s) && oldJobId < s.nextToken
    requires OnChange(s, changed, isReorg, nonceAt).Success?
    ensures var c := OnChange(s, changed, isReorg, nonceAt).value;
      forall k :: 0 <= k < |c.jobs| ==> CompleteJob(c.state, c.jobs[k].nonce, oldJobId) == c.state
  {
  }

  /** `isLoaded` under the very job id: what the wait loop of `_saveBlock`
      polls for. */
  predicate Ready(s: State, nonce: Nonce, jobId: Token) {
    nonce in s.nonces && s.nonces[nonce].isLoaded && s.nonces[nonce].jobId == jobId
  }

  datatype SaveStatus = Waiting | Saved | Discarded

  /** `_saveBlock` over the states its wait loop observes, then the state its
      locked re-check sees. The loop leaves only on a loaded job with the same
      id; it has no exit when the id no longer matches. After leaving, the
      block is saved only if the nonce still carries the id. */
  function SaveBlock(polls: seq<State>, recheck: State, nonce: Nonce, jobId: Token): (r: SaveStatus)
    ensures r == Waiting <==> forall k :: 0 <= k < |polls| ==> !Ready(polls[k], nonce, jobId)
    ensures r == Saved <==>
      (exists k :: 0 <= k < |polls| && Ready(polls[k], nonce, jobId)) && HoldsToken(recheck, nonce, jobId)
  {
    if |polls| == 0 then Waiting
    else if Ready(polls[0], nonce, jobId) then (if HoldsToken(recheck, nonce, jobId) then Saved else Discarded)
    else
      var r := SaveBlock(polls[1..], recheck, nonce, jobId);
      assert forall k :: 1 <= k < |polls| ==> polls[k] == polls[1..][k - 1];
      r
  }

  /** In the program the locked re-check follows the ready poll with no
      await in between, so it sees that same state; a save that reaches its
      re-check that way is always saved. */
  lemma RecheckAtReadyPollSaves(polls: seq<State>, nonce: Nonce, jobId: Token, k: nat)
    requires k < |polls| && Ready(polls[k], nonce, jobId)
    requires forall j :: 0 <= j < k ==> !Ready(polls[j], nonce, jobId)
    ensures SaveBlock(polls, polls[k], nonce, jobId) == Saved
  {
  }

  /** A save whose job id has been superseded in every observed state neither
      saves nor gives up: it keeps waiting. */
  lemma SupersededSaveWaits(polls: seq<State>, recheck: State, nonce: Nonce, jobId: Token)
    requires forall k :: 0 <= k < |polls| ==> !HoldsToken(polls[k], nonce, jobId)
    ensures SaveBlock(polls, recheck, nonce, jobId) == Waiting
  {
  }

  /** cutOffFinalizedBlocks: the storage deletes are not written, so the
      state is left exactly as it was. */
  function CutOffFinalizedBlocks(s: State, blocksToRemove: seq<nat>): (r: State)
    ensures r == s
  {
    s
  }

  /** Blocks 50 and 51, both resolved to nonce 7, pair up in order. */
  lemma PairsExample(nonceAt: nat -> Nonce, bs: seq<Block>)
    requires |bs| == 2 && bs[0].number == 50 && bs[1].number == 51
    requires nonceAt(50) == 7 && nonceAt(51) == 7
    ensures Pairs(Empty, bs, nonceAt) == [BlockWithNonce(50, 7, bs[0]), BlockWithNonce(51, 7, bs[1])]
  {
    Seqs.FilterAll(bs, ChangedFor(Empty));
    assert FindIndex(bs, 51) == 1;
  }

  /** Nonce 7 on blocks 50 and 51 is fetched at height 50. */
  lemma FetchHeightExample(items: seq<BlockWithNonce>)
    requires |items| == 2 && items[0].blockNumber == 50 && items[1].blockNumber == 51
    requires items[0].nonce == 7 && items[1].nonce == 7
    ensures FetchHeight(items, 7) == 50
  {
    assert items[1..][1..] == [];
    assert HeightsOf(items[1..][1..], 7) == [];
    assert HeightsOf(items[1..], 7) == [51] + [];
    assert HeightsOf(items, 7) == [50] + [51];
    assert Seqs.Min([50, 51]) == 50 by {
      assert [50, 51][1..] == [51];
    }
  }

  /** Nonce 7, seen twice in an empty manager, is loaded once. */
  lemma NoncesToLoadExample(items: seq<BlockWithNonce>)
    requires |items| == 2 && items[0].nonce == 7 && items[1].nonce == 7
    ensures NoncesToLoad(Empty, items) == [7]
  {
    assert ItemNonces(items) == [7, 7];
    DedupTwice(7);
    assert Seqs.Filter([7], Untracked(Empty)) == [7] by {
      assert [7][1..] == [];
    }
  }

  /** Nonce 7 on blocks 50 and 51 yields one job, fetched at height 50. */
  lemma JobsExample(items: seq<BlockWithNonce>)
    requires |items| == 2 && items[0].blockNumber == 50 && items[1].blockNumber == 51
    requires items[0].nonce == 7 && items[1].nonce == 7
    ensures NoncesToLoad(Empty, items) == [7]
    ensures CreateJobs(Empty, items, [7]).1 == [Job(7, 50, 0)]
    ensures CreateJobs(Empty, items, [7]).0.nonces == map[7 := NonceData(0, false)]
  {
    NoncesToLoadExample(items);
    FetchHeightExample(items);
    assert [7][..0] == [];
  }

  /** Both blocks are recorded under nonce 7. */
  lemma RecordExample(items: seq<BlockWithNonce>, h: Hash, g: Hash)
    requires |items| == 2 && items[0].blockNumber == 50 && items[1].blockNumber == 51
    requires items[0].nonce == 7 && items[1].nonce == 7
    requires items[0].block.hash == h && items[1].block.hash == g
    ensures RecordAll(map[], items) == map[50 := BlockEntry(h, 7), 51 := BlockEntry(g, 7)]
  {
    assert ItemNumbers(items) == [50, 51];
    assert RecordAll(map[], items).Keys == {50, 51};
  }

  /** Processing nonce 7 on blocks 50 and 51 in an empty manager. */
  lemma ProcessExample(nonceAt: nat -> Nonce, bs: seq<Block>)
    requires |bs| == 2 && bs[0].number == 50 && bs[1].number == 51
    requires nonceAt(50) == 7 && nonceAt(51) == 7
    ensures var c := ProcessChanges(Empty, bs, nonceAt);
      && c.jobs == [Job(7, 50, 0)]
      && c.state.nonces == map[7 := NonceData(0, false)]
      && c.state.blocks == map[50 := BlockEntry(bs[0].hash, 7), 51 := BlockEntry(bs[1].hash, 7)]
  {
    PairsExample(nonceAt, bs);
    var items := [BlockWithNonce(50, 7, bs[0]), BlockWithNonce(51, 7, bs[1])];
    JobsExample(items);
    RecordExample(items, bs[0].hash, bs[1].hash);
  }

  /** Nonce 7 on blocks 50 and 51 of an empty manager gives one job, at
      height 50, and both blocks recorded under nonce 7. */
  lemma OneJobPerNonceExample(nonceAt: nat -> Nonce, h: Hash, g: Hash, p: Hash)
    requires nonceAt(50) == 7 && nonceAt(51) == 7
    ensures var r := OnChange(Empty, [Block(50, h, p), Block(51, g, h)], false, nonceAt);
      && r.Success?
      && r.value.jobs == [Job(7, 50, 0)]
      && r.value.state.nonces == map[7 := NonceData(0, false)]
      && r.value.state.blocks == map[50 := BlockEntry(h, 7), 51 := BlockEntry(g, 7)]
  {
    var bs := [Block(50, h, p), Block(51, g, h)];
    Seqs.FilterAll(bs, HasNumber);
    ProcessExample(nonceAt, bs);
  }
}

=== FILE: rpc_helper.dfy ===
/** Batch-size discovery of `src/helpers/RPCHelper.ts`: a binary search per
    operator for the largest `getSigningKeys(operator, 0, limit)` request the
    node answers, the scan over operators that keeps the running maximum, and
    the cache in front of it. The node is an oracle: `probe(op, limit)` holds
    when the request succeeds, `totals(op)` is the operator's key count. */
module RpcHelper {
  import Seqs

  /** The bounds getMaxBatchSize searches. */
  const SearchLow: int := 1
  const SearchHigh: int := 1500

  /** `hi` is where a search that began at `lo` with upper bound `high`
      settled: every limit it last accepted lies just below `hi + 1`, and the
      limit just above `hi` was rejected, unless the search hit a bound. */
  predicate Settled(probe: (nat, int) -> bool, op: nat, lo: int, high: int, hi: int) {
    && lo - 1 <= hi <= high
    && (hi == lo - 1 || probe(op, hi))
    && (hi == high || !probe(op, hi + 1))
  }

  /** The binary search for one operator. `low` carries over from the
      previous operator; `currentHigh` restarts at `high`. On exit `low` is
      one past the result. */
  method SearchOperator(op: nat, low0: int, high: int, probe: (nat, int) -> bool)
    returns (low: int, currentHigh: int)
    ensures low0 <= high + 1 ==> low == currentHigh + 1 && Settled(probe, op, low0, high, currentHigh)
    ensures low0 > high + 1 ==> low == low0 && currentHigh == high
  {
    low := low0;
    currentHigh := high;
    while low <= currentHigh
      invariant low0 <= low && currentHigh <= high
      invariant low0 <= high + 1 ==> low <= currentHigh + 1
      invariant low0 > high + 1 ==> low == low0 && currentHigh == high
      invariant low == low0 || probe(op, low - 1)
      invariant currentHigh == high || !probe(op, currentHigh + 1)
      decreases currentHigh - low
    {
      var mid := (low + currentHigh) / 2;
      if probe(op, mid) {
        low := mid + 1;
      } else {
        currentHigh := mid - 1;
      }
    }
  }

  /** When the node accepts exactly the limits up to `limit`, a settled
      search has found `limit`, clamped to the searched range. */
  lemma SettledAtThreshold(probe: (nat, int) -> bool, op: nat, lo: int, high: int, hi: int, limit: int)
    requires forall n :: probe(op, n) <==> n <= limit
    requires Settled(probe, op, lo, high, hi)
    ensures hi == Seqs.Greater(lo - 1, Seqs.Lesser(limit, high))
  {
  }

  /** The largest value of `result` after each operator: the running
      maximum of the settled highs, starting from 0. */
  function RunningMax(highs: seq<int>): (r: int)
    ensures r >= 0
    ensures |highs| > 0 ==> highs[|highs| - 1] <= r
  {
    if |highs| == 0 then 0 else Seqs.Greater(RunningMax(highs[..|highs| - 1]), highs[|highs| - 1])
  }

  /** Where operator `j`'s search starts: `low` is never reset, so it is one
      past where the previous operator's search settled. */
  function StartOf(low0: int, highs: seq<int>, j: nat): int
    requires j <= |highs|
  {
    if j == 0 then low0 else highs[j - 1] + 1
  }

  /** Every operator's search settled, each starting where the previous one
      left `low`. */
  predicate SearchedInTurn(probe: (nat, int) -> bool, low0: int, high: int, highs: seq<int>) {
    forall j {:trigger StartOf(low0, highs, j)} :: 0 <= j < |highs| ==>
      Settled(probe, j, StartOf(low0, highs, j), high, highs[j])
  }

  /** After each of the first `n` operators the result was at least that
      operator's key count, so the scan went on. */
  predicate ContinuedThrough(highs: seq<int>, totals: nat -> int, n: nat)
    requires n <= |highs|
  {
    forall j :: 0 <= j < n ==> RunningMax(highs[..j + 1]) >= totals(j)
  }

  lemma SearchedInTurnAppend(probe: (nat, int) -> bool, low0: int, high: int, highs: seq<int>, c: int)
    requires SearchedInTurn(probe, low0, high, highs)
    requires Settled(probe, |highs|, StartOf(low0, highs, |highs|), high, c)
    ensures SearchedInTurn(probe, low0, high, highs + [c])
  {
    var h := highs + [c];
    forall j | 0 <= j < |h|
      ensures Settled(probe, j, StartOf(low0, h, j), high, h[j])
    {
      if j < |highs| {
        assert StartOf(low0, h, j) == StartOf(low0, highs, j);
      }
    }
  }

  lemma ContinuedThroughAppend(highs: seq<int>, totals: nat -> int, n: nat, c: int)
    requires n <= |highs|
    requires ContinuedThrough(highs, totals, n)
    ensures ContinuedThrough(highs + [c], totals, n)
  {
    var h := highs + [c];
    forall j | 0 <= j < n
      ensures RunningMax(h[..j + 1]) >= totals(j)
    {
      assert h[..j + 1] == highs[..j + 1];
    }
  }

  /** One more settled high raises the running maximum to it, if higher. */
  lemma RunningMaxAppend(highs: seq<int>, c: int)
    ensures RunningMax(highs + [c]) == Seqs.Greater(RunningMax(highs), c)
    ensures (highs + [c])[..|highs| + 1] == highs + [c]
  {
    assert (highs + [c])[..|highs|] == highs;
  }

  /** The scan of findMaxBatchSize over operators `0 .. operatorCount - 1`.
      `highs[j]` is where operator `j`'s search settled; the scan stops after
      the first operator whose key count exceeds the result so far. */
  method FindMaxBatchSize(low0: int, high: int, operatorCount: nat, totals: nat -> int, probe: (nat, int) -> bool)
    returns (result: int, highs: seq<int>)
    ensures |highs| <= operatorCount
    ensures result == RunningMax(highs)
    ensures 0 <= result <= Seqs.Greater(0, high)
    ensures low0 <= high + 1 ==> SearchedInTurn(probe, low0, high, highs)
    ensures low0 > high + 1 ==> forall j :: 0 <= j < |highs| ==> highs[j] == high
    ensures |highs| > 0 ==> ContinuedThrough(highs, totals, |highs| - 1)
    ensures |highs| < operatorCount ==> |highs| > 0 && result < totals(|highs| - 1)
  {
    result := 0;
    highs := [];
    var low := low0;
    var op: nat := 0;
    var stopped := false;
    while op < operatorCount && !stopped
      invariant op == |highs| <= operatorCount
      invariant low0 <= high + 1 ==> low == StartOf(low0, highs, op) && low <= high + 1
      invariant low0 > high + 1 ==> low == low0 && forall j :: 0 <= j < op ==> highs[j] == high
      invariant result == RunningMax(highs) && result <= Seqs.Greater(0, high)
      invariant low0 <= high + 1 ==> SearchedInTurn(probe, low0, high, highs)
      invariant !stopped ==> ContinuedThrough(highs, totals, op)
      invariant stopped ==> op > 0 && ContinuedThrough(highs, totals, op - 1) && result < totals(op - 1)
    {
      var currentHigh;
      low, currentHigh := SearchOperator(op, low, high, probe);
      if low0 <= high + 1 {
        SearchedInTurnAppend(probe, low0, high, highs, currentHigh);
      }
      ContinuedThroughAppend(highs, totals, op, currentHigh);
      RunningMaxAppend(highs, currentHigh);
      highs := highs + [currentHigh];
      result := Seqs.Greater(result, currentHigh);
      op := op + 1;
      if result < totals(op - 1) {
        stopped := true;
      }
    }
  }

  /** Each search starts one past the previous result, so the settled highs
      never go down and the result is the last of them. */
  lemma {:induction false} SettledHighsAscend(probe: (nat, int) -> bool, low0: int, high: int, highs: seq<int>)
    requires SearchedInTurn(probe, low0, high, highs)
    requires low0 >= 1
    ensures forall j :: 0 < j < |highs| ==> highs[j - 1] <= highs[j]
    ensures |highs| > 0 ==> RunningMax(highs) == highs[|highs| - 1]
  {
    forall j | 0 < j < |highs|
      ensures highs[j - 1] <= highs[j]
    {
      assert Settled(probe, j, StartOf(low0, highs, j), high, highs[j]);
    }
    if |highs| > 0 {
      var init := highs[..|highs| - 1];
      assert SearchedInTurn(probe, low0, high, init) by {
        forall j | 0 <= j < |init|
          ensures Settled(probe, j, StartOf(low0, init, j), high, init[j])
        {
          assert StartOf(low0, init, j) == StartOf(low0, highs, j);
        }
      }
      SettledHighsAscend(probe, low0, high, init);
      assert Settled(probe, 0, StartOf(low0, highs, 0), high, highs[0]);
    }
  }

  /** When every operator's node accepts exactly the limits up to its own
      threshold, each settled high is the previous one raised to that
      threshold, capped at the upper bound. */
  lemma SettledHighsAtThresholds(probe: (nat, int) -> bool, low0: int, high: int, highs: seq<int>, limits: nat -> int, j: nat)
    requires forall op, n :: probe(op, n) <==> n <= limits(op)
    requires 0 < j < |highs|
    requires Settled(probe, j, highs[j - 1] + 1, high, highs[j])
    ensures highs[j] == Seqs.Greater(highs[j - 1], Seqs.Lesser(limits(j), high))
  {
    SettledAtThreshold(probe, j, highs[j - 1] + 1, high, highs[j], limits(j));
  }

  /** getMaxBatchSize: a non-zero cached size is returned as is; otherwise
      the search over `[1, 1500]` runs and its result is cached, so a zero
      result is searched again on the next call. */
  method GetMaxBatchSize(cached: int, operatorCount: nat, totals: nat -> int, probe: (nat, int) -> bool)
    returns (size: int, searched: bool)
    ensures searched <==> cached == 0
    ensures !searched ==> size == cached
    ensures searched ==> 0 <= size <= SearchHigh
  {
    searched := cached == 0;
    if searched {
      var highs;
      size, highs := FindMaxBatchSize(SearchLow, SearchHigh, operatorCount, totals, probe);
    } else {
      size := cached;
    }
  }
}

=== FILE: seqs.dfy ===
/** Sequence helpers standing in for the array methods the indexer uses
    (`filter`, `new Set`, `reduce` to a minimum). */
module Seqs {

  /** `Array.prototype.filter`: the elements satisfying `p`, in order. */
  function Filter<T(!new)>(s: seq<T>, p: T -> bool): (r: seq<T>)
    ensures |r| <= |s|
    ensures forall x :: x in r <==> x in s && p(x)
    ensures forall i :: 0 <= i < |r| ==> p(r[i])
  {
    if |s| == 0 then [] else (if p(s[0]) then [s[0]] else []) + Filter(s[1..], p)
  }

  /** Filtering distributes over concatenation, so it keeps relative order. */
  lemma {:induction false} FilterAppend<T(!new)>(a: seq<T>, b: seq<T>, p: T -> bool)
    ensures Filter(a + b, p) == Filter(a, p) + Filter(b, p)
  {
    if |a| == 0 {
      assert a + b == b;
    } else {
      assert (a + b)[1..] == a[1..] + b;
      FilterAppend(a[1..], b, p);
    }
  }

  /** A filter that keeps everything is the identity. */
  lemma {:induction false} FilterAll<T(!new)>(s: seq<T>, p: T -> bool)
    requires forall i :: 0 <= i < |s| ==> p(s[i])
    ensures Filter(s, p) == s
  {
    if |s| > 0 {
      FilterAll(s[1..], p);
    }
  }

  /** A filter that keeps nothing is empty. */
  lemma {:induction false} FilterNone<T(!new)>(s: seq<T>, p: T -> bool)
    requires forall i :: 0 <= i < |s| ==> !p(s[i])
    ensures Filter(s, p) == []
  {
    if |s| > 0 {
      FilterNone(s[1..], p);
    }
  }

  /** Filters whose predicates agree on the elements agree. */
  lemma {:induction false} FilterSame<T(!new)>(s: seq<T>, p: T -> bool, q: T -> bool)
    requires forall i :: 0 <= i < |s| ==> (p(s[i]) <==> q(s[i]))
    ensures Filter(s, p) == Filter(s, q)
  {
    if |s| > 0 {
      FilterSame(s[1..], p, q);
    }
  }

  /** No element occurs twice. */
  predicate Distinct<T(==)>(s: seq<T>) {
    forall i, j :: 0 <= i < j < |s| ==> s[i] != s[j]
  }

  /** Without repeats, a sequence of one value holds it at most once. */
  lemma DistinctSingle<T>(s: seq<T>, c: T)
    requires Distinct(s)
    requires forall i :: 0 <= i < |s| ==> s[i] == c
    ensures |s| <= 1
  {
    if |s| >= 2 {
      FirstTwoDiffer(s);
      assert false;
    }
  }

  lemma FirstTwoDiffer<T>(s: seq<T>)
    requires Distinct(s) && |s| >= 2
    ensures s[0] != s[1]
  {
  }

  /** `[...new Set(s)]`: each element once, in order of first occurrence. */
  function Dedup<T(==,!new)>(s: seq<T>): (r: seq<T>)
    ensures forall x :: x in r <==> x in s
    ensures Distinct(r)
    ensures |r| <= |s|
  {
    if |s| == 0 then []
    else
      var prefix := Dedup(s[..|s| - 1]);
      assert forall x :: x in s[..|s| - 1] ==> x in s;
      assert forall x :: x in s ==> x in s[..|s| - 1] || x == s[|s| - 1];
      if s[|s| - 1] in prefix then prefix else prefix + [s[|s| - 1]]
  }

  /** `Math.min` of two numbers. */
  function Lesser(a: int, b: int): int {
    if a <= b then a else b
  }

  /** `Math.max` of two numbers. */
  function Greater(a: int, b: int): int {
    if a >= b then a else b
  }

  /** The smallest element, as `reduce((min, x) => min < x ? min : x)`. */
  function Min(s: seq<int>): (m: int)
    requires |s| > 0
    ensures m in s
    ensures forall i :: 0 <= i < |s| ==> m <= s[i]
  {
    if |s| == 1 then s[0]
    else
      var rest := Min(s[1..]);
      assert forall i :: 1 <= i < |s| ==> s[i] == s[1..][i - 1];
      if s[0] < rest then s[0] else rest
  }

  /** The consecutive integers `lo, lo + 1, ..., lo + n - 1`. */
  function Iota(lo: int, n: nat): (r: seq<int>)
    ensures |r| == n
    ensures forall k :: 0 <= k < n ==> r[k] == lo + k
  {
    if n == 0 then [] else Iota(lo, n - 1) + [lo + n - 1]
  }

  /** When every element `all` keeps falls in exactly one of `lo` and `hi`, and
      no `lo` element follows a `hi` element, the `all` filter is the `lo`
      filter followed by the `hi` filter. */
  lemma {:induction false} FilterSplit<T(!new)>(s: seq<T>, all: T -> bool, lo: T -> bool, hi: T -> bool)
    requires forall i :: 0 <= i < |s| ==> (all(s[i]) <==> lo(s[i]) || hi(s[i]))
    requires forall i :: 0 <= i < |s| ==> !(lo(s[i]) && hi(s[i]))
    requires forall i, j :: 0 <= i < j < |s| && hi(s[i]) ==> !lo(s[j])
    ensures Filter(s, all) == Filter(s, lo) + Filter(s, hi)
  {
    if |s| > 0 {
      var t := s[1..];
      assert forall i :: 0 <= i < |t| ==> t[i] == s[i + 1];
      FilterSplit(t, all, lo, hi);
      var x := s[0];
      if lo(x) {
        AppendAssoc([x], Filter(t, lo), Filter(t, hi));
      } else if hi(x) {
        FilterNone(t, lo);
        assert Filter(s, lo) == [] + Filter(t, lo);
      } else {
        assert Filter(s, lo) == [] + Filter(t, lo);
        assert Filter(s, hi) == [] + Filter(t, hi);
        assert Filter(s, all) == [] + Filter(t, all);
      }
    }
  }

  lemma AppendAssoc<T>(a: seq<T>, b: seq<T>, c: seq<T>)
    ensures a + (b + c) == (a + b) + c
  {
  }
}

=== FILE: signing_keys.dfy ===
/** Signing-key pagination of `src/utils/getSigningKeys.ts`: the page plan of
    getOperatorKeys, its bounded retry loop, and the per-operator enumeration
    of getSigningKeys. The contract reads are oracles: `totals(op)` for
    getTotalSigningKeyCount and `read(op, attempt, page)` for one
    getSigningKeys page request, `None` standing for a request that throws. */
module SigningKeys {
  import opened Wrappers
  import Seqs

  /** One page request: keys `offset .. offset + length - 1`. */
  datatype Page = Page(offset: int, length: int)

  /** The default `maxRetryCount` of getOperatorKeys. */
  const DefaultMaxRetryCount: nat := 3

  // ---------------------------------------------------------------------
  // Page arithmetic
  // ---------------------------------------------------------------------

  /** `Math.ceil(total / maxBatchSize)`: the fewest batches of at most
      `m` keys that hold `total` keys. */
  function CeilDiv(total: nat, m: nat): (r: nat)
    requires m > 0
    ensures r * m >= total
    ensures total > 0 ==> (r - 1) * m < total
    ensures total == 0 <==> r == 0
  {
    var q := (total + m - 1) / m;
    var rem := (total + m - 1) % m;
    assert q * m + rem == total + m - 1;
    assert (q - 1) * m == q * m - m;
    q
  }

  /** A total that fits in one batch takes one page. */
  lemma CeilDivOne(total: nat, m: nat)
    requires 0 < total <= m
    ensures CeilDiv(total, m) == 1
  {
    var r := CeilDiv(total, m);
    if r >= 2 {
      assert (r - 1) * m >= m by {
        MulMono(r - 1, 1, m);
      }
    }
  }

  lemma MulMono(a: nat, b: nat, m: nat)
    requires a >= b
    ensures a * m >= b * m
  {
  }

  /** The offsets a page requests. */
  function Span(p: Page): (r: seq<int>)
    ensures |r| == if p.length <= 0 then 0 else p.length
  {
    if p.length <= 0 then [] else Seqs.Iota(p.offset, p.length)
  }

  /** The offsets the pages request, in request order. */
  function Offsets(pages: seq<Page>): (r: seq<int>)
  {
    if |pages| == 0 then [] else Offsets(pages[..|pages| - 1]) + Span(pages[|pages| - 1])
  }

  /** The pages request every offset in `[0, total)` exactly once, in
      ascending order. */
  predicate CoversExactly(pages: seq<Page>, total: nat) {
    Offsets(pages) == Seqs.Iota(0, total)
  }

  /** Pages that are full batches of `m` at offsets `0, m, 2m, ...` request
      exactly `[0, j * m)`. */
  lemma {:induction false} FullPagesCover(pages: seq<Page>, m: nat, j: nat)
    requires j <= |pages|
    requires forall i :: 0 <= i < j ==> pages[i] == Page(i * m, m)
    ensures Offsets(pages[..j]) == Seqs.Iota(0, j * m)
  {
    if j > 0 {
      FullPagesCover(pages, m, j - 1);
      FullPageStep(pages, m, j);
    }
  }

  /** One more full page extends the covered range by `m`. */
  lemma FullPageStep(pages: seq<Page>, m: nat, j: nat)
    requires 0 < j <= |pages|
    requires Offsets(pages[..j - 1]) == Seqs.Iota(0, (j - 1) * m)
    requires pages[j - 1] == Page((j - 1) * m, m)
    ensures Offsets(pages[..j]) == Seqs.Iota(0, j * m)
  {
    var b := (j - 1) * m;
    assert Offsets(pages[..j]) == Offsets(pages[..j - 1]) + Span(Page(b, m)) by {
      assert pages[..j][..j - 1] == pages[..j - 1];
    }
    MulSucc(j - 1, m);
    SpanAppend(b, j * m);
  }

  lemma MulSucc(i: nat, m: nat)
    ensures i * m + m == (i + 1) * m
  {
  }

  /** A range of `a` offsets followed by a page at `a` reaching `total` is
      the range of `total` offsets. */
  lemma SpanAppend(a: nat, total: nat)
    requires a <= total
    ensures Seqs.Iota(0, a) + Span(Page(a, total - a)) == Seqs.Iota(0, total)
  {
    var l := Seqs.Iota(0, a) + Span(Page(a, total - a));
    assert |l| == total;
    forall k | 0 <= k < total
      ensures l[k] == k
    {
      if k >= a {
        assert l[k] == Seqs.Iota(a, total - a)[k - a];
      }
    }
  }

  // ---------------------------------------------------------------------
  // The plan as written
  // ---------------------------------------------------------------------

  /** Page `i` of `count` as getOperatorKeys requests it: every page but the
      last asks for `limit` keys at `i * limit`; the last asks for
      `total % maxBatchSize` keys at `i * (total % maxBatchSize)`. */
  function PageAsWritten(i: nat, count: nat, total: nat, maxBatch: nat): (r: Page)
    requires maxBatch > 0
    ensures 0 <= r.length <= maxBatch && r.length <= total
    ensures r.offset == i * r.length
  {
    var limit := Seqs.Lesser(total, maxBatch);
    var actual := if i == count - 1 then total % maxBatch else limit;
    Page(i * actual, actual)
  }

  /** The page plan of getOperatorKeys as written. With a batch size of 0 and
      keys to fetch, `Math.ceil` gives `Infinity` and the page loop never ends
      (`None`); with nothing to fetch it gives `NaN` and no page runs. */
  function PagePlan(total: nat, maxBatch: nat): (r: Option<seq<Page>>)
    ensures r.None? <==> maxBatch == 0 && total > 0
    ensures maxBatch == 0 && total == 0 ==> r == Some([])
    ensures maxBatch > 0 ==> |r.value| == CeilDiv(total, maxBatch)
  {
    if maxBatch == 0 then (if total == 0 then Some([]) else None)
    else
      var count := CeilDiv(total, maxBatch);
      Some(seq(count, i requires 0 <= i < count => PageAsWritten(i, count, total, maxBatch)))
  }

  /** The plan as written requests `[0, total)` exactly once if and only if
      there are fewer keys than one batch. From `total >= maxBatchSize` on, the last
      page is empty when the batch size divides the total, and otherwise
      starts at `(count - 1) * (total % maxBatchSize)` instead of
      `(count - 1) * maxBatchSize`. */
  lemma PagePlanCoversIff(total: nat, maxBatch: nat)
    requires maxBatch > 0
    ensures CoversExactly(PagePlan(total, maxBatch).value, total) <==> total < maxBatch
  {
    if total < maxBatch {
      PagePlanOneBatch(total, maxBatch);
    } else {
      PagePlanMissesTail(total, maxBatch);
    }
  }

  lemma PagePlanOneBatch(total: nat, maxBatch: nat)
    requires total < maxBatch
    ensures CoversExactly(PagePlan(total, maxBatch).value, total)
  {
    var pages := PagePlan(total, maxBatch).value;
    if total > 0 {
      CeilDivOne(total, maxBatch);
      assert pages == [Page(0, total)];
      assert pages[..0] == [];
    }
  }

  /** From one full batch on, every page of the plan as written but the
      last is a full batch at its proper offset. */
  lemma PagePlanShape(total: nat, maxBatch: nat)
    requires 0 < maxBatch <= total
    ensures var pages := PagePlan(total, maxBatch).value;
      && |pages| >= 1
      && (forall i :: 0 <= i < |pages| - 1 ==> pages[i] == Page(i * maxBatch, maxBatch))
      && pages[|pages| - 1] == Page((|pages| - 1) * (total % maxBatch), total % maxBatch)
  {
  }

  lemma PagePlanMissesTail(total: nat, maxBatch: nat)
    requires 0 < maxBatch <= total
    ensures !CoversExactly(PagePlan(total, maxBatch).value, total)
  {
    var pages := PagePlan(total, maxBatch).value;
    var rem := total % maxBatch;
    PagePlanShape(total, maxBatch);
    assert rem == 0 || |pages| >= 2 by {
      if |pages| == 1 {
        assert total == maxBatch;
      }
    }
    ShortLastPageMissesTail(pages, total, maxBatch, rem);
  }

  /** Full pages followed by a last page of `rem < m` keys at
      `(count - 1) * rem` miss offset `(count - 1) * m`, which is below the
      total. */
  lemma ShortLastPageMissesTail(pages: seq<Page>, total: nat, m: nat, rem: nat)
    requires |pages| >= 1 && rem < m
    requires forall i :: 0 <= i < |pages| - 1 ==> pages[i] == Page(i * m, m)
    requires pages[|pages| - 1] == Page((|pages| - 1) * rem, rem)
    requires (|pages| - 1) * m < total
    requires rem == 0 || |pages| >= 2
    ensures !CoversExactly(pages, total)
  {
    var count := |pages|;
    FullPagesCover(pages, m, count - 1);
    var at := (count - 1) * m;
    var front := Seqs.Iota(0, at);
    var last := pages[count - 1];
    assert pages[..count] == pages;
    assert Offsets(pages) == front + Span(last);
    if rem == 0 {
      assert |Offsets(pages)| == at;
    } else {
      assert Offsets(pages)[at] == Span(last)[0] == (count - 1) * rem;
      MulStrict(count - 1, rem, m);
      assert Seqs.Iota(0, total)[at] == at;
    }
  }

  lemma MulStrict(a: nat, x: nat, y: nat)
    requires a > 0 && x < y
    ensures a * x < a * y
  {
  }

  /** Ten keys in batches of five: the second page asks for zero keys at
      offset 0, so keys 5 to 9 are never requested. */
  lemma PagePlanSkipsLastBatch()
    ensures PagePlan(10, 5) == Some([Page(0, 5), Page(0, 0)])
    ensures Offsets(PagePlan(10, 5).value) == Seqs.Iota(0, 5)
  {
    var pages := [Page(0, 5), Page(0, 0)];
    assert PagePlan(10, 5).value == pages;
    assert pages[..1][..0] == [];
    assert pages[..1] == [Page(0, 5)];
  }

  /** Exactly one batch of keys: the only page is also the last one and asks
      for `5 % 5 == 0` keys, so none of the five keys is requested. */
  lemma PagePlanExactBatchReadsNothing()
    ensures PagePlan(5, 5) == Some([Page(0, 0)])
    ensures Offsets(PagePlan(5, 5).value) == []
  {
    var pages := [Page(0, 0)];
    assert PagePlan(5, 5).value == pages;
    assert pages[..0] == [];
  }

  /** Seven keys in batches of five: the second page asks for keys 2 and 3
      again, and keys 5 and 6 are never requested. */
  lemma PagePlanRereadsKeys()
    ensures PagePlan(7, 5) == Some([Page(0, 5), Page(2, 2)])
    ensures Offsets(PagePlan(7, 5).value) == Seqs.Iota(0, 5) + [2, 3]
  {
    var pages := [Page(0, 5), Page(2, 2)];
    assert PagePlan(7, 5).value == pages;
    assert pages[..1][..0] == [];
    assert pages[..1] == [Page(0, 5)];
    assert Seqs.Iota(2, 2) == [2, 3];
  }

  // ---------------------------------------------------------------------
  // The corrected plan
  // ---------------------------------------------------------------------

  /** The plan the loop evidently intends: page `i` asks for up to
      `maxBatch` keys at `i * maxBatch`, the last one for whatever remains. */
  function FixedPlan(total: nat, maxBatch: nat): (r: seq<Page>)
    requires maxBatch > 0
    ensures |r| == CeilDiv(total, maxBatch)
  {
    var count := CeilDiv(total, maxBatch);
    seq(count, i requires 0 <= i < count => Page(i * maxBatch, Seqs.Lesser(maxBatch, total - i * maxBatch)))
  }

  /** The corrected plan requests every offset in `[0, total)` exactly once,
      in ascending order. */
  lemma FixedPlanCovers(total: nat, maxBatch: nat)
    requires maxBatch > 0
    ensures CoversExactly(FixedPlan(total, maxBatch), total)
  {
    var pages := FixedPlan(total, maxBatch);
    if |pages| > 0 {
      FixedPlanShape(total, maxBatch);
      var at := (|pages| - 1) * maxBatch;
      FullPagesCover(pages, maxBatch, |pages| - 1);
      RemainderPageCompletes(pages, total, at);
    }
  }

  lemma FixedPlanShape(total: nat, maxBatch: nat)
    requires 0 < maxBatch && 0 < total
    ensures var pages := FixedPlan(total, maxBatch);
      && |pages| >= 1
      && (|pages| - 1) * maxBatch < total
      && (forall i :: 0 <= i < |pages| - 1 ==> pages[i] == Page(i * maxBatch, maxBatch))
      && pages[|pages| - 1] == Page((|pages| - 1) * maxBatch, total - (|pages| - 1) * maxBatch)
  {
    var pages := FixedPlan(total, maxBatch);
    var count := |pages|;
    forall i | 0 <= i < count - 1
      ensures pages[i] == Page(i * maxBatch, maxBatch)
    {
      MulMono(count - 1, i + 1, maxBatch);
      MulSucc(i, maxBatch);
    }
    MulSucc(count - 1, maxBatch);
  }

  /** A range `[0, at)` followed by a page holding everything left below the
      total requests `[0, total)` exactly once. */
  lemma RemainderPageCompletes(pages: seq<Page>, total: nat, at: nat)
    requires |pages| >= 1 && at <= total
    requires Offsets(pages[..|pages| - 1]) == Seqs.Iota(0, at)
    requires pages[|pages| - 1] == Page(at, total - at)
    ensures CoversExactly(pages, total)
  {
    assert Offsets(pages) == Seqs.Iota(0, at) + Span(Page(at, total - at));
    SpanAppend(at, total);
  }

  /** Where the plan as written is right, it is the corrected plan. */
  lemma PlansAgreeBelowOneBatch(total: nat, maxBatch: nat)
    requires 0 < maxBatch && total < maxBatch
    ensures PagePlan(total, maxBatch) == Some(FixedPlan(total, maxBatch))
  {
    if total > 0 {
      CeilDivOne(total, maxBatch);
      assert PagePlan(total, maxBatch).value == [Page(0, total)];
      assert FixedPlan(total, maxBatch) == [Page(0, total)];
    }
  }

  // ---------------------------------------------------------------------
  // Retry loop
  // ---------------------------------------------------------------------

  /** The keys of the pages, concatenated in request order. */
  function Flatten<K>(chunks: seq<seq<K>>): seq<K> {
    if |chunks| == 0 then [] else Flatten(chunks[..|chunks| - 1]) + chunks[|chunks| - 1]
  }

  /** Attempt `a` over `pages`: the pages are requested in order and the
      first request that throws ends the attempt. The keys already pushed
      stay; the flag says whether every page came back. */
  function Attempt<K>(pages: seq<Page>, a: nat, read: (nat, Page) -> Option<seq<K>>): (r: (seq<K>, bool))
    ensures !r.1 ==> exists k :: 0 <= k < |pages| && read(a, pages[k]).None?
  {
    if |pages| == 0 then ([], true)
    else
      var before := Attempt(pages[..|pages| - 1], a, read);
      if !before.1 then before
      else match read(a, pages[|pages| - 1])
        case None => (before.0, false)
        case Some(ks) => (before.0 + ks, true)
  }

  /** What every page of attempt `a` returns, in order, when none throws. */
  function PageResults<K>(pages: seq<Page>, a: nat, read: (nat, Page) -> Option<seq<K>>): seq<seq<K>>
    requires forall i :: 0 <= i < |pages| ==> read(a, pages[i]).Some?
  {
    seq(|pages|, i requires 0 <= i < |pages| => read(a, pages[i]).value)
  }

  /** An attempt succeeds exactly when no page request throws, and then its
      keys are the pages' keys concatenated in request order. */
  lemma {:induction false} AttemptSucceedsIff<K>(pages: seq<Page>, a: nat, read: (nat, Page) -> Option<seq<K>>)
    ensures Attempt(pages, a, read).1 <==> forall i :: 0 <= i < |pages| ==> read(a, pages[i]).Some?
    ensures Attempt(pages, a, read).1 ==> Attempt(pages, a, read).0 == Flatten(PageResults(pages, a, read))
  {
    if |pages| > 0 {
      var init := pages[..|pages| - 1];
      AttemptSucceedsIff(init, a, read);
      assert forall i :: 0 <= i < |init| ==> init[i] == pages[i];
      if Attempt(pages, a, read).1 {
        assert PageResults(pages, a, read)[..|pages| - 1] == PageResults(init, a, read);
      }
    }
  }

  /** The keys accumulated over attempts `0 .. n - 1`: the accumulator is
      never reset, so a failed attempt's pages stay in the result. */
  function KeysUpTo<K>(pages: seq<Page>, n: nat, read: (nat, Page) -> Option<seq<K>>): seq<K> {
    if n == 0 then [] else KeysUpTo(pages, n - 1, read) + Attempt(pages, n - 1, read).0
  }

  datatype OperatorKeys<K> = OperatorKeys(operatorId: nat, keys: seq<K>)

  /** The stopping rule of the retry loop: every attempt before the last one
      failed, and the last one either completed every page or was the
      `maxRetryCount`-th. */
  predicate RetriedUntilDone<K>(pages: seq<Page>, attempts: nat, maxRetryCount: nat, read: (nat, Page) -> Option<seq<K>>) {
    && (forall j :: 0 <= j < attempts - 1 ==> !Attempt(pages, j, read).1)
    && (attempts == maxRetryCount || (attempts > 0 && Attempt(pages, attempts - 1, read).1))
  }

  /** The retry loop of getOperatorKeys over a page plan. It makes at most
      `maxRetryCount` attempts and stops after the first that completes every
      page. `attempts` counts the attempts made. */
  method GetOperatorKeys<K>(operatorId: nat, pages: seq<Page>, maxRetryCount: nat, read: (nat, Page) -> Option<seq<K>>)
    returns (r: OperatorKeys<K>, attempts: nat)
    ensures r.operatorId == operatorId
    ensures attempts <= maxRetryCount
    ensures forall j :: 0 <= j < attempts - 1 ==> !Attempt(pages, j, read).1
    ensures attempts == maxRetryCount || (attempts > 0 && Attempt(pages, attempts - 1, read).1)
    ensures maxRetryCount > 0 ==> attempts > 0
    ensures r.keys == KeysUpTo(pages, attempts, read)
  {
    var signingKeys: seq<K> := [];
    var retryCount: nat := 0;
    var done := false;
    while retryCount < maxRetryCount && !done
      invariant retryCount <= maxRetryCount
      invariant forall j :: 0 <= j < retryCount ==> !Attempt(pages, j, read).1
      invariant !done ==> signingKeys == KeysUpTo(pages, retryCount, read)
      invariant done ==> retryCount < maxRetryCount && Attempt(pages, retryCount, read).1
      invariant done ==> signingKeys == KeysUpTo(pages, retryCount + 1, read)
      decreases maxRetryCount - retryCount, if done then 0 else 1
    {
      var ok;
      signingKeys, ok := RunAttempt(pages, retryCount, read, signingKeys);
      if ok {
        done := true;
      } else {
        retryCount := retryCount + 1;
      }
    }
    attempts := if done then retryCount + 1 else retryCount;
    r := OperatorKeys(operatorId, signingKeys);
  }

  /** One attempt of the retry loop: the pages are read in order onto the
      accumulator `start`, and the first read that throws ends the attempt. */
  method RunAttempt<K>(pages: seq<Page>, a: nat, read: (nat, Page) -> Option<seq<K>>, start: seq<K>)
    returns (keys: seq<K>, ok: bool)
    ensures ok == Attempt(pages, a, read).1
    ensures keys == start + Attempt(pages, a, read).0
  {
    keys := start;
    var i := 0;
    var failed := false;
    while i < |pages| && !failed
      invariant 0 <= i <= |pages|
      invariant !failed ==> Attempt(pages[..i], a, read).1
      invariant !failed ==> keys == start + Attempt(pages[..i], a, read).0
      invariant failed ==> keys == start + Attempt(pages, a, read).0
      invariant failed ==> !Attempt(pages, a, read).1
      decreases |pages| - i, if failed then 0 else 1
    {
      assert pages[..i + 1][..i] == pages[..i];
      match read(a, pages[i])
      case None =>
        failed := true;
        AttemptStopsAtFailure(pages, i, a, read);
      case Some(ks) =>
        keys := keys + ks;
        i := i + 1;
    }
    if !failed {
      assert pages[..i] == pages;
    }
    ok := !failed;
  }

  /** Once page `i` of an attempt throws, the attempt has failed with the keys
      of the pages before it. */
  lemma {:induction false} AttemptStopsAtFailure<K>(pages: seq<Page>, i: nat, a: nat, read: (nat, Page) -> Option<seq<K>>)
    requires i < |pages| && read(a, pages[i]).None?
    requires Attempt(pages[..i], a, read).1
    ensures Attempt(pages, a, read) == (Attempt(pages[..i], a, read).0, false)
    decreases |pages|
  {
    if |pages| == i + 1 {
      assert pages[..|pages| - 1] == pages[..i];
    } else {
      var init := pages[..|pages| - 1];
      assert init[..i] == pages[..i];
      AttemptStopsAtFailure(init, i, a, read);
    }
  }

  /** Two pages; the first attempt reads key `x` and then fails on the second
      page; the second attempt reads both. The result holds `x` twice. */
  lemma RetryKeepsFailedPages<K>(x: K, y: K, read: (nat, Page) -> Option<seq<K>>)
    requires read(0, Page(0, 1)) == Some([x]) && read(0, Page(1, 1)) == None
    requires read(1, Page(0, 1)) == Some([x]) && read(1, Page(1, 1)) == Some([y])
    ensures KeysUpTo([Page(0, 1), Page(1, 1)], 2, read) == [x, x, y]
  {
    var pages := [Page(0, 1), Page(1, 1)];
    assert pages[..1] == [Page(0, 1)];
    assert pages[..1][..0] == [];
    assert Attempt(pages[..1][..0], 0, read) == ([], true);
    assert [] + [x] == [x];
    assert Attempt(pages[..1], 0, read) == ([x], true);
    assert Attempt(pages, 0, read) == ([x], false);
    assert Attempt(pages[..1], 1, read) == ([x], true);
    assert [x] + [y] == [x, y];
    assert Attempt(pages, 1, read) == ([x, y], true);
    assert KeysUpTo(pages, 1, read) == [x];
  }

  // ---------------------------------------------------------------------
  // Operator enumeration
  // ---------------------------------------------------------------------

  /** The page reader for one operator. */
  function ReaderFor<K>(read: (nat, nat, Page) -> Option<seq<K>>, operatorId: nat): (nat, Page) -> Option<seq<K>> {
    (a: nat, p: Page) => read(operatorId, a, p)
  }

  /** The enumeration of getSigningKeys over operators `0 .. count - 1`,
      given each operator's page plan, or `None` where reading the
      operator's key total throws. Each operator runs the retry loop with the
      default ceiling. One throwing total read rejects the whole
      `Promise.all`, so no result comes back. */
  method FetchAll<K>(operatorCount: nat, plans: nat -> Option<seq<Page>>, read: (nat, nat, Page) -> Option<seq<K>>)
    returns (r: Option<seq<OperatorKeys<K>>>, attempts: seq<nat>)
    ensures r.None? <==> exists i :: 0 <= i < operatorCount && plans(i).None?
    ensures r.Some? ==> |r.value| == operatorCount && |attempts| == operatorCount
    ensures r.Some? ==> forall i :: 0 <= i < operatorCount ==>
      && r.value[i].operatorId == i
      && 0 < attempts[i] <= DefaultMaxRetryCount
      && RetriedUntilDone(plans(i).value, attempts[i], DefaultMaxRetryCount, ReaderFor(read, i))
      && r.value[i].keys == KeysUpTo(plans(i).value, attempts[i], ReaderFor(read, i))
    ensures r.Some? ==> forall i :: 0 <= i < operatorCount && Attempt(plans(i).value, 0, ReaderFor(read, i)).1 ==>
      attempts[i] == 1 && r.value[i].keys == Attempt(plans(i).value, 0, ReaderFor(read, i)).0
  {
    var acc: seq<OperatorKeys<K>> := [];
    attempts := [];
    var op := 0;
    while op < operatorCount
      invariant 0 <= op <= operatorCount
      invariant |acc| == op && |attempts| == op
      invariant forall i :: 0 <= i < op ==> plans(i).Some?
      invariant forall i :: 0 <= i < op ==>
        && acc[i].operatorId == i
        && 0 < attempts[i] <= DefaultMaxRetryCount
        && RetriedUntilDone(plans(i).value, attempts[i], DefaultMaxRetryCount, ReaderFor(read, i))
        && acc[i].keys == KeysUpTo(plans(i).value, attempts[i], ReaderFor(read, i))
      invariant forall i :: 0 <= i < op && Attempt(plans(i).value, 0, ReaderFor(read, i)).1 ==>
        attempts[i] == 1 && acc[i].keys == Attempt(plans(i).value, 0, ReaderFor(read, i)).0
    {
      if plans(op).None? {
        return None, attempts;
      }
      var keys, n := GetOperatorKeys(op, plans(op).value, DefaultMaxRetryCount, ReaderFor(read, op));
      acc := acc + [keys];
      attempts := attempts + [n];
      op := op + 1;
    }
    r := Some(acc);
  }

  /** getSigningKeys as written: `count` is the operator count read from the
      registry (`None` when that read throws), `totals(i)` operator `i`'s key
      total (`None` when that read throws), and every operator is fetched
      over the page plan as written. The batch size must be positive: with
      0 the source's page loop never ends for an operator that has keys
      while its page reads succeed. */
  method GetSigningKeys<K>(count: Option<nat>, maxBatch: nat, totals: nat -> Option<nat>, read: (nat, nat, Page) -> Option<seq<K>>)
    returns (r: Option<seq<OperatorKeys<K>>>, attempts: seq<nat>)
    requires maxBatch > 0
    ensures r.None? <==> count.None? || exists i :: 0 <= i < count.value && totals(i).None?
    ensures r.Some? ==> |r.value| == count.value && |attempts| == count.value
    ensures r.Some? ==> forall i :: 0 <= i < count.value ==>
      && r.value[i].operatorId == i
      && 0 < attempts[i] <= DefaultMaxRetryCount
      && RetriedUntilDone(PagePlan(totals(i).value, maxBatch).value, attempts[i], DefaultMaxRetryCount, ReaderFor(read, i))
      && r.value[i].keys == KeysUpTo(PagePlan(totals(i).value, maxBatch).value, attempts[i], ReaderFor(read, i))
    ensures r.Some? ==> forall i :: 0 <= i < count.value && Attempt(PagePlan(totals(i).value, maxBatch).value, 0, ReaderFor(read, i)).1 ==>
      attempts[i] == 1 && r.value[i].keys == Attempt(PagePlan(totals(i).value, maxBatch).value, 0, ReaderFor(read, i)).0
  {
    if count.None? {
      return None, [];
    }
    var plans := (i: nat) => if totals(i).Some? then PagePlan(totals(i).value, maxBatch) else None;
    assert forall i: nat :: plans(i) == if totals(i).Some? then PagePlan(totals(i).value, maxBatch) else None;
    r, attempts := FetchAll(count.value, plans, read);
  }

  /** getSigningKeys over the corrected page plan: the same enumeration, with
      every operator's keys requested exactly once per attempt. */
  method GetSigningKeysFixed<K>(count: Option<nat>, maxBatch: nat, totals: nat -> Option<nat>, read: (nat, nat, Page) -> Option<seq<K>>)
    returns (r: Option<seq<OperatorKeys<K>>>, attempts: seq<nat>)
    requires maxBatch > 0
    ensures r.None? <==> count.None? || exists i :: 0 <= i < count.value && totals(i).None?
    ensures r.Some? ==> |r.value| == count.value && |attempts| == count.value
    ensures r.Some? ==> forall i :: 0 <= i < count.value ==>
      && r.value[i].operatorId == i
      && 0 < attempts[i] <= DefaultMaxRetryCount
      && RetriedUntilDone(FixedPlan(totals(i).value, maxBatch), attempts[i], DefaultMaxRetryCount, ReaderFor(read, i))
      && r.value[i].keys == KeysUpTo(FixedPlan(totals(i).value, maxBatch), attempts[i], ReaderFor(read, i))
      && CoversExactly(FixedPlan(totals(i).value, maxBatch), totals(i).value)
  {
    if count.None? {
      return None, [];
    }
    var plans := (i: nat) => if totals(i).Some? then Some(FixedPlan(totals(i).value, maxBatch)) else None;
    assert forall i: nat :: plans(i) == if totals(i).Some? then Some(FixedPlan(totals(i).value, maxBatch)) else None;
    r, attempts := FetchAll(count.value, plans, read);
    if r.Some? {
      forall i | 0 <= i < count.value
        ensures totals(i).Some? && CoversExactly(FixedPlan(totals(i).value, maxBatch), totals(i).value)
      {
        assert plans(i).Some?;
        FixedPlanCovers(totals(i).value, maxBatch);
      }
    }
  }
}

=== FILE: wrappers.dfy ===
/** Failure-compatible result types shared by the modules of this model. */
module Wrappers {

  /** An optional value: `None` stands for the source's `undefined`. */
  datatype Option<+T> = None | Some(value: T)

  /** A value or the error the source would have thrown instead. */
  datatype Result<+R, +E> = Success(value: R) | Failure(error: E)
}
